=== FILE: README.md ===
# Expense tracker — a Dafny model

This project models the core of a small personal expense tracker, which has a server part and a client part.

The server keeps one table of expenses and offers five operations on it:
- create an expense;
- list expenses, optionally filtered by category, month and year;
- get an expense by id;
- update some of an expense's fields;
- delete an expense.

Every input first goes through a validation schema. The client has three components:
- a filter bar, which builds the filter object;
- an entry form, which builds the create payload;
- the page, which loads the list (with a local mock fallback), prepends new expenses and shows the totals.

The model is made of pure functions over immutable values:

| module | file | what it holds |
|---|---|---|
| `Outcomes` | outcomes.dfy | `Option` and `Result` |
| `Decimal` | decimal.dfy | decimal digit strings, JavaScript white space, `parseInt`, and `parseFloat` with sign, fraction and exponent |
| `Calendar` | calendar.dfy | Gregorian dates, instants (UTC day plus milliseconds), `YYYY-MM-DD` text |
| `Money` | money.dfy | rounding to the `numeric(10, 2)` column and its overflow bound |
| `Categories` | categories.dfy | the seven categories, their names, the schema and column enums |
| `Schema` | schema.dfy | the create, update and filter schemas, as validators that return the issues per field |
| `ExpenseTable` | table.dfy | the table as a map from serial id to row, the `integer` id range, and the table invariant |
| `Handlers` | handlers.dfy | the five server handlers |
| `HandlerLaws` | handler_laws.dfy | laws relating the handlers to each other |
| `FilterControl` | filter_control.dfy | the filter bar's state, its change handlers and the filter it emits |
| `ExpenseForm` | expense_form.dfy | the entry form's state, `isValid`, and the payload it submits |
| `App` | app.dfy | loading with the mock fallback, prepending a created expense, the total and the monthly total |

Representation choices:
- **Amounts.** An input amount is an exact real number. A stored amount is an integer number of cents, rounded half away from zero, as PostgreSQL rounds `numeric`. A rounded amount with 9 or more integer digits is a storage error, since `numeric(10, 2)` leaves 8 digits before the point.
- **Dates.** A date is a `CalDate`. A JavaScript `Date` is an `Instant`: a UTC calendar day plus milliseconds into that day. The `date` column stores the UTC day.
- **Ids.** The `serial` id column is a PostgreSQL `integer`. An id outside -2147483648..2147483647 makes the query fail with an out-of-range error, and the id sequence stops at 2147483647.
- **Listing order.** Without a filter, rows come back in ascending id order. The SQL query gives no order, so every listing property is also stated without reference to order.
- **Client filter keys.** Each key of the client's filter object is a `Slot`: missing, present but `undefined`, or given a value. This matters because `Object.keys(filters).length` counts present-but-undefined keys.

## Model

| member | source | states |
|---|---|---|
| Categories.Parse | server/src/schema.ts:4-12 | a string is accepted exactly when it is one of the seven enum literals, and the category returned has that name |
| Categories.NameParses | server/src/schema.ts:4-12 | every category's name parses back to that category |
| Categories.NamesDistinct | server/src/schema.ts:4-12 | distinct categories have distinct names |
| Categories.ColumnEnumMatchesSchema | server/src/db/schema.ts:4-12 | the database enum lists the same seven values, in the same order, as the zod enum; every category's name can be stored, and a stored value is accepted by the schema and reads back as the category of that name |
| Categories.OfferedIsComplete | client/src/components/ExpenseFilters.tsx:12-20 | the categories the client offers are exactly all seven, each once |
| Schema.AmountIssues | server/src/schema.ts:30 | a missing amount or one that is not positive yields issues about the amount field only, and none exactly when the amount is present and positive |
| Schema.DateIssues | server/src/schema.ts:31 | a missing date or an Invalid Date yields issues about the date field only, and none exactly when a valid date is given |
| Schema.DescriptionIssues | server/src/schema.ts:32 | a missing or empty description yields issues about the description field only, and none exactly when it has at least one character |
| Schema.CategoryIssues | server/src/schema.ts:33 | a missing category or a string outside the enum yields issues about the category field only, and none exactly when the enum accepts it |
| Schema.BoundedIntIssues | server/src/schema.ts:52-53 | a number is accepted exactly when it is an integer within the optional bounds; otherwise every issue names the given field |
| Schema.IdIssues | server/src/schema.ts:40 | an id is required, and a present id yields no issue |
| Schema.ValidateCreate | server/src/schema.ts:29-34 | success exactly when all four fields are acceptable, and then the validated input echoes them; on failure, a field appears among the issues exactly when that field is unacceptable |
| Schema.UpdateIssues | server/src/schema.ts:39-45 | a field is named among the issues exactly when the id is missing, or when an optional field is present but unacceptable |
| Schema.ValidateUpdate | server/src/schema.ts:39-45 | success exactly when there are no issues; absent optional fields become `None` and present ones are echoed; a failure reports the per-field issues |
| Schema.ValidateFilter | server/src/schema.ts:50-54 | success exactly when each present field is acceptable (month an integer 1..12, year an integer at least 1900), echoing them; on failure, the fields named are exactly the bad ones |
| Schema.EmptyFilterAccepted | server/src/schema.ts:50-54 | a filter with no keys is accepted as all-`None` |
| Schema.FilterBoundsAccepted | server/src/schema.ts:52-53 | month 1, month 12 and year 1900 are accepted, and so is a year far in the future |
| Schema.FilterBoundsRejected | server/src/schema.ts:52-53 | month 0, month 13 and year 1899 are each rejected with one bound issue; month 1.5 with only the not-an-integer issue; month 0.5 with the not-an-integer issue and then the below-minimum issue |
| Schema.IdOnlyUpdateAccepted | server/src/schema.ts:39-45 | an update that carries only an id is accepted with every field `None` |
| Money.RoundToCents | server/src/db/schema.ts:16 | the stored cents lie within half a cent of the amount, and on the amount's side of zero |
| Money.Units | server/src/handlers/get_expenses.ts:55 | converting cents back to a number gives a value whose hundredfold is the cents |
| Money.WholeCentsKept | server/src/handlers/create_expense.ts:20-23 | an amount given in whole cents comes back unchanged after storing and converting back |
| Money.RoundsHalfCentUp | server/src/tests/update_expense.test.ts:185-197 | 12.345 is stored as 12.35 |
| Money.TinyPositiveAmountRoundsToZero | server/src/db/schema.ts:16 | a positive amount below half a cent, 0.004, is stored as 0 cents |
| Money.PositiveFromHalfCent | server/src/db/schema.ts:16 | any amount of at least half a cent is stored as a positive number of cents |
| Money.ColumnBound | server/src/db/schema.ts:16 | 99999999.99 fits the column and 100000000.00 does not |
| Calendar.DaysInMonth | server/src/db/schema.ts:17 | every month has 28 to 31 days, and February has 29 exactly in leap years |
| Calendar.Midnight | client/src/components/ExpenseForm.tsx:55 | a date-only string denotes the start of its UTC day, which is a valid instant |
| Calendar.IsoDateText | server/src/handlers/create_expense.ts:11 | for years 0..9999 the text is ten characters with dashes at positions 4 and 7; other years take the signed 13-character form |
| Calendar.ParseIsoDate | client/src/components/ExpenseForm.tsx:55 | a parsed date is a valid calendar date with a four-digit year |
| Calendar.IsoDateTextParses | server/src/handlers/create_expense.ts:11 | formatting a date and parsing the text gives the date back |
| Calendar.ParsedIsoDateIsCanonical | server/src/handlers/create_expense.ts:11 | text that parses is the canonical text of the date it denotes |
| Decimal.ParseInt | client/src/components/ExpenseFilters.tsx:66 | `parseInt` fails when there is no digit; a plain run of digits reads as its value, and a minus sign followed by digits as the negated value |
| Decimal.ParseIntSkipsSpaces | client/src/components/ExpenseFilters.tsx:66 | any run of leading white space is skipped: text after it reads as the text alone |
| Decimal.IntToDecimalParses | client/src/components/ExpenseFilters.tsx:133-136 | an integer's `toString()` parses back to that integer, so the option values round-trip through `parseInt` |
| Decimal.ParseFloat | client/src/components/ExpenseForm.tsx:95 | `parseFloat` fails when there is no digit, and a plain run of digits reads as its value; the general value is given by `Decimal.ParseFloatOfRender` |
| Decimal.ScanRender | client/src/components/ExpenseForm.tsx:95 | scanning the canonical text of any numeral (sign, whole digits, fraction, exponent) gives that numeral back |
| Decimal.ParseFloatOfRender | client/src/components/ExpenseForm.tsx:95 | `parseFloat` of a numeral's canonical text is the numeral's value, the whole and fraction digits scaled by the power of ten its exponent names |
| Decimal.ParseFloatExponent | client/src/components/ExpenseForm.tsx:95 | "1e3" reads as 1000 |
| Decimal.ParseFloatNegativeExponent | client/src/components/ExpenseForm.tsx:95 | "2.5e-1" reads as 0.25 |
| Decimal.ParseFloatNegative | client/src/components/ExpenseForm.tsx:95 | "-12.50" reads as -12.5 |
| Decimal.ParseFloatBareExponent | client/src/components/ExpenseForm.tsx:95 | "7e" reads as 7: an `e` without digits after it ends the number |
| ExpenseTable.EmptyValid | server/src/db/schema.ts:14-21 | the empty table with the serial at 1 meets the table invariant |
| ExpenseTable.IdsIdentifyRows | server/src/db/schema.ts:15 | in a valid table, two rows with the same id are the same row |
| ExpenseTable.ValidIdsFitColumn | server/src/db/schema.ts:15 | every id of a valid table lies in the `integer` range and names its own row |
| ExpenseTable.RowAmountInColumn | server/src/db/schema.ts:16 | a well-formed row's amount lies in 0 up to, not including, 100000000 |
| Handlers.CreateExpense | server/src/handlers/create_expense.ts:8-24 | the insert fails with SequenceExhausted exactly when the id sequence is past 2147483647, and otherwise with NumericOverflow exactly when the rounded amount overflows the column; on success it adds one row under a fresh id above every existing id, keeps the table invariant, stores the rounded amount, the UTC day, description, category and the current time |
| Handlers.GetExpenseById | server/src/handlers/get_expense_by_id.ts:9-25 | an id outside the `integer` range fails with IdOutOfRange; otherwise the row is returned exactly when its id is present, and null when it is not |
| Handlers.Conditions | server/src/handlers/get_expenses.ts:11-39 | no filter gives no condition; otherwise there is a condition for each given field and no other, the category's first |
| Handlers.BranchEquivalence | server/src/handlers/get_expenses.ts:11-39 | the handler's four-way choice of conditions selects a row exactly when the row has the category, month and year that are given |
| Handlers.Scan | server/src/handlers/get_expenses.ts:43-50 | the rows returned are exactly the rows in the id range that satisfy every condition, in ascending id order |
| Handlers.GetExpenses | server/src/handlers/get_expenses.ts:6-62 | a row is listed exactly when it is in the table and matches the filter, in ascending id order |
| Handlers.Merge | server/src/handlers/update_expense.ts:9-22 | every supplied field is replaced, with the amount rounded and the date reduced to its day; every other field, the id and the creation time are kept |
| Handlers.ErrorMessage | server/src/handlers/update_expense.ts:31-52 | the not-found message is "Expense with id " and " not found" around a number that `parseInt` reads back as the id; the out-of-range message carries the id the same way |
| Handlers.UpdateExpense | server/src/handlers/update_expense.ts:6-56 | an id outside the `integer` range fails with IdOutOfRange; an absent id in range fails with NotFound of that id; an overflow can happen only when an amount is supplied; on success only that row changes, to the merge, and the invariant holds; with no fields the row is returned unchanged |
| Handlers.DeleteExpense | server/src/handlers/delete_expense.ts:5-18 | an id outside the `integer` range fails with IdOutOfRange; otherwise the id is gone, every other row is unchanged, the invariant holds and the serial is not rewound |
| HandlerLaws.ZeroAndNegativeIdsAbsent | server/src/tests/get_expense_by_id.test.ts:95-107 | ids 0 and below are never found, and those below the `integer` range fail |
| HandlerLaws.OutOfRangeIdsFail | server/src/db/schema.ts:15 | an id outside the `integer` range makes get, update and delete all fail with IdOutOfRange |
| HandlerLaws.CreateAfterLastIdFails | server/src/db/schema.ts:15 | once the sequence has handed out 2147483647, every create fails with SequenceExhausted |
| HandlerLaws.CreateThenGet | server/src/tests/get_expense_by_id.test.ts:20-46 | the created row is returned by id, with the rounded amount and the date, description and category as given |
| HandlerLaws.CreateAddsOneRow | server/src/handlers/create_expense.ts:8-16 | a create adds exactly one row and leaves the others alone |
| HandlerLaws.WholeCentAmountEchoed | server/src/tests/create_expense.test.ts:21-33 | an amount in whole cents is returned exactly as given |
| HandlerLaws.TwoCreatesDistinct | server/src/tests/create_expense.test.ts:92-122 | two creates get different, increasing ids, and both rows remain |
| HandlerLaws.DeletedIdNotReused | server/src/db/schema.ts:15 | a delete of a present id succeeds, and a create after it never reuses the deleted id |
| HandlerLaws.SubCentAmountStoredAsZero | server/src/handlers/create_expense.ts:10 | an amount of 0.004 is accepted by the schema and stored as 0.00 |
| HandlerLaws.DeleteThenGet | server/src/tests/delete_expense.test.ts:56-102 | after a successful delete, the id is not found |
| HandlerLaws.DeleteAbsentIsNoOp | server/src/tests/delete_expense.test.ts:104-108 | deleting an absent id changes nothing |
| HandlerLaws.DeleteIdempotent | server/src/handlers/delete_expense.ts:8-10 | deleting twice is the same as deleting once, whenever the first delete succeeds |
| HandlerLaws.DeleteFrame | server/src/handlers/delete_expense.ts:8-10 | a successful delete does not change what any other id returns |
| HandlerLaws.UpdateThenGet | server/src/tests/update_expense.test.ts:133-157 | after an update, the id returns the merged row |
| HandlerLaws.UpdateMissingFails | server/src/handlers/update_expense.ts:50-52 | updating an id in range that is absent fails with the message "Expense with id N not found" |
| HandlerLaws.UpdateFrame | server/src/handlers/update_expense.ts:44-48 | an update does not change what any other id returns |
| HandlerLaws.UpdateRoundsAmount | server/src/tests/update_expense.test.ts:185-197 | updating the amount to 12.345 stores 12.35 |
| HandlerLaws.EmptyFilterListsAll | server/src/tests/get_expenses.test.ts:12-51 | an empty filter lists the same rows as no filter, which is every row |
| HandlerLaws.FilterCases | server/src/handlers/get_expenses.ts:11-39 | for each of the seven combinations of category, month and year, a row is listed exactly when it matches the ones given |
| HandlerLaws.NoMatchListsNothing | server/src/tests/get_expenses.test.ts:244-267 | when no row matches, the list is empty |
| HandlerLaws.Lifecycle | server/src/handlers/create_expense.ts:8-24 | one record through the handlers in turn: it is created with its amount, listed under its category, updated to a new amount (update_expense.ts:44-55), and deleted (delete_expense.ts:8-10), after which its id is not found |
| FilterControl.YearOptions | client/src/components/ExpenseFilters.tsx:47-49 | five years are offered, from the current year down to four years before it |
| FilterControl.OptionValues | client/src/components/ExpenseFilters.tsx:133-136 | each option's value is the decimal text of its number |
| FilterControl.HandleCategoryChange | client/src/components/ExpenseFilters.tsx:54-61 | month and year are kept; the category key becomes present, holding the choice or `undefined` for "all" |
| FilterControl.ChoiceSlot | client/src/components/ExpenseFilters.tsx:66 | the key is always present, and it is `undefined` exactly for "all" |
| FilterControl.HandleMonthChange | client/src/components/ExpenseFilters.tsx:63-70 | category and year are kept; the month key is always present, `undefined` exactly for "all", and otherwise the `parseInt` of the choice |
| FilterControl.HandleYearChange | client/src/components/ExpenseFilters.tsx:72-79 | category and month are kept; the year key is always present, `undefined` exactly for "all", and otherwise the `parseInt` of the choice |
| FilterControl.ClearFilters | client/src/components/ExpenseFilters.tsx:81-85 | every key is removed |
| FilterControl.ToRaw | client/src/App.tsx:22 | a key reaches the server exactly when it holds a value, and then carries the category's name, or the month or year as a number |
| FilterControl.OptionValueIsNumberChoice | client/src/components/ExpenseFilters.tsx:133-136 | every offered option value parses to one of the offered numbers |
| FilterControl.RunStaysInRange | client/src/components/ExpenseFilters.tsx:32-79 | after any sequence of choices among the offered options, the month is 1..12 and the year one of the five offered |
| FilterControl.EmittedFilterValid | client/src/components/ExpenseFilters.tsx:32-79 | from 1904 on, every filter the bar emits passes the server's filter schema, which returns the same category, month and year the bar holds |
| FilterControl.HasActiveFilters | client/src/components/ExpenseFilters.tsx:87 | a chosen category, or a month or year other than 0, makes the clear button show; it shows only when some key holds a value |
| FilterControl.ActiveIffSomeGiven | client/src/components/ExpenseFilters.tsx:87 | the clear button shows exactly when some key holds a value |
| ExpenseForm.InitialForm | client/src/components/ExpenseForm.tsx:42-47 | the form starts with amount 0, an empty description, no category, and today's date in text that parses back to today |
| ExpenseForm.AmountFromText | client/src/components/ExpenseForm.tsx:95 | a plain run of digits gives its value, text with no digit gives 0, and any other nonzero amount is what `parseFloat` reads |
| ExpenseForm.EditAmount | client/src/components/ExpenseForm.tsx:94-96 | only the amount changes, to the value parsed from the text or 0 |
| ExpenseForm.Trim | client/src/components/ExpenseForm.tsx:61 | the result is no longer than the text and has no JavaScript white space at either end; it is empty exactly when the text is blank |
| ExpenseForm.TrimIsInfix | client/src/components/ExpenseForm.tsx:61 | the result is a contiguous part of the text, with only white space cut away before and after it |
| ExpenseForm.IsValid | client/src/components/ExpenseForm.tsx:61 | the form is valid exactly when the amount is positive, the description is not blank and a category is chosen |
| ExpenseForm.SubmitEnabled | client/src/components/ExpenseForm.tsx:171 | the save button is enabled exactly when the form is valid and not already saving |
| ExpenseForm.SubmittedDate | client/src/components/ExpenseForm.tsx:55 | a date is produced only from text that is the canonical `YYYY-MM-DD` form of that date, and it is a valid instant at midnight UTC |
| ExpenseForm.SubmittedDateOfIsoText | client/src/components/ExpenseForm.tsx:55 | the date input's text for a day becomes midnight UTC of that day |
| ExpenseForm.HandleSubmit | client/src/components/ExpenseForm.tsx:49-59 | nothing is submitted without a category; otherwise the amount, description and category are sent as entered |
| ExpenseForm.ClientValidImpliesServerValid | client/src/components/ExpenseForm.tsx:49-61 | a form that passes `isValid` and has a parseable date submits a payload the create schema accepts, with exactly the form's values |
| ExpenseForm.BlankDescriptionOnlyServerValid | client/src/components/ExpenseForm.tsx:61 | a description of one space fails `isValid`, though the server schema would accept it |
| ExpenseForm.InitialFormInvalid | client/src/components/ExpenseForm.tsx:171 | the freshly opened form cannot be submitted |
| ExpenseForm.InitialDateRoundTrips | client/src/components/ExpenseForm.tsx:44 | submitting the initial date text gives midnight UTC of today |
| ExpenseForm.AmountParsing | client/src/components/ExpenseForm.tsx:95 | the text of a whole number gives that number, and "1e3" gives 1000 |
| App.QueryArgument | client/src/App.tsx:22 | the query sends no filter exactly when every key is missing, and otherwise the keys' values |
| App.FallbackSelect | client/src/App.tsx:62-73 | the two filter passes keep, in their original order, exactly the samples the fallback's test accepts |
| App.ServerSelectsView | server/src/handlers/get_expenses.ts:53-58 | the filter selects a returned record exactly when it selects the row it came from |
| App.ServerWithinFallback | client/src/App.tsx:62-73 | every record the server would select, the fallback keeps too |
| App.FallbackAgreesWhenPaired | client/src/App.tsx:67-73 | when month and year are both given, or both absent, and any given month or year is not 0, the fallback keeps exactly what the server selects |
| App.LoneMonthIgnoredByFallback | client/src/App.tsx:67-73 | with a month but no year the fallback keeps every record, though the server drops each record from another month |
| App.SamplesInJanuary | client/src/App.tsx:27-60 | every sample is dated in January 2024 |
| App.LoadExpenses | client/src/App.tsx:19-79 | a server answer replaces the list; a failure shows, in order, the samples the fallback keeps |
| App.LoadShowsServerRows | client/src/App.tsx:22-23 | after a successful load, the list shows exactly the table rows the filter selects |
| App.HandleCreate | client/src/App.tsx:85-112 | the created expense is put in front of the previous list; a failed call makes a local one with a time-based id and the current time |
| App.Total | client/src/App.tsx:118 | an empty list totals 0, and amounts that are not negative total at least 0 |
| App.TotalAppend | client/src/App.tsx:118 | the total of two lists joined is the sum of their totals |
| App.MonthlyTotal | client/src/App.tsx:119-124 | an empty list's month figure is 0; with amounts that are not negative, the figure lies between 0 and the total |
| App.MonthlyTotalPrepend | client/src/App.tsx:119-124 | a record in front adds its amount to the month's figure exactly when it is dated in the current month and year, so the figure is the sum over that month's records |
| App.CreateUpdatesSummary | client/src/App.tsx:118-124 | creating adds the new amount to the total, one record to the list, and the amount to the month's figure exactly when the new record is dated in the current month |
| App.SubtotalAtMostTotal | client/src/App.tsx:119-124 | with amounts that are not negative, any filtered subtotal lies between 0 and the total |
| App.SampleSummary | client/src/App.tsx:27-60 | there are four samples, totalling 1283.49 |

## Left out

- Transport is not modelled: the RPC router, serialisation, the health check, and the error wrapping between server and client.
- Rendering is not modelled: the React rendering, the expense list component, icons and styles, and loading indicators other than the submit button's `isLoading`.
- Connection and driver errors are left out. The storage errors modelled are the `numeric(10, 2)` overflow, an id outside the `integer` range, and the id sequence running out.
- Floating point is left out. Amounts are exact reals, so binary rounding in `parseFloat`, in `+` for totals, and in `toFixed` is not modelled.
- Time zones are left out, for three uses:
  - the client's local `getMonth` / `getFullYear` in the fallback and in the monthly total;
  - the node-postgres conversion of a `Date` on update;
  - the server's time zone when a `date` is written.

  All three are taken as UTC.
- Clocks and randomness are parameters: `new Date()` for `created_at`, `Date.now()` for a fallback id, and the current year.
- `Calendar.ParseIsoDate`: only reads the `YYYY-MM-DD` form. This is the form the date input produces. The other strings `new Date(...)` accepts are not modelled, and extended six-digit years are formatted but not parsed.
- PostgreSQL's own `date` range limits are not modelled. The JavaScript `Date` range is rounded to whole years (-271821 to 275760).
- `Decimal.ParseFloat`: does not read `Infinity`. The value of a `type="number"` input is empty or a valid floating-point number, which never spells out `Infinity`.
- `Decimal.ParseInt`: does not read a `0x` radix prefix. The option values it is applied to are plain decimals.
- NaN and Infinity amounts are not modelled. The schema's `positive()` is modelled over exact reals.
- A raw input field is either absent or of the expected JSON type. Type mismatches (an amount sent as a string) are not modelled, and neither are the exact zod message texts; issues are reduced to a field and a kind of problem.
- Ids are integers. A fractional id passed to get, update or delete is not modelled, and neither is an id above 2^53, which a JavaScript number cannot hold exactly.
- Whether a failed insert consumes a serial value is not modelled: a failed create leaves the store unchanged.
- The PostgreSQL error texts in `Handlers.ErrorMessage` (out of range, sequence exhausted, numeric overflow) are written as PostgreSQL words them; only the handler's own not-found text comes from the program.
- `Handlers.UpdateExpense`: when the id is absent and the supplied amount overflows, the model reports NotFound. The database's order of checks is not modelled.
- `Handlers.GetExpenses`: returns rows in ascending id order, which is one of the orders the unordered query may produce.
- `FilterControl.HandleMonthChange` and `FilterControl.HandleYearChange` take only a `NumberChoice`: "all" or text in which `parseInt` finds a number. A choice that reads as NaN is not modelled; a select only emits the option values, which all qualify (`FilterControl.OptionValueIsNumberChoice`). `FilterControl.HandleCategoryChange` takes a category or "all" rather than a string. The range lemmas cover only the offered choices (`Offered`).
- `ExpenseForm.ClientValidImpliesServerValid`: assumes the date text parses. `isValid` does not look at the date; the input's `required` attribute is what keeps it filled in.
- The fallback create with an Invalid Date (an empty date text) is not modelled in `App.HandleCreate`. The payload carries a date the form produced.

## Notes

- **Stored amounts can be zero.** The create and update schemas require `positive()` (server/src/schema.ts:30 and 41), but an amount below half a cent passes them and is stored as 0.00 by the `numeric(10, 2)` column (`HandlerLaws.SubCentAmountStoredAsZero`). The row invariant is therefore "at least zero".
- **The client fallback is more lenient than the server.** The server filters on each of month and year that is given (server/src/handlers/get_expenses.ts:18-39). The fallback in client/src/App.tsx:62-73 filters on month and year only when both are given, so a lone month or year is ignored (`App.LoneMonthIgnoredByFallback`).

=== FILE: app.dfy ===
/** The page: the list it shows, how a load replaces it (or falls back to the
    built-in samples when the call fails), how a create prepends to it, and
    the summary figures. The server call's outcome is a parameter. */
module App {
  import opened Outcomes
  import opened Calendar
  import opened Categories
  import Schema
  import opened ExpenseTable
  import Handlers
  import Money
  import opened FilterControl

  /** An expense as the page holds it: the amount a number, the date an
      instant. */
  datatype ExpenseView = ExpenseView(
    id: int,
    amount: real,
    date: Instant,
    description: string,
    category: Category,
    createdAt: Instant)

  /** A row as the server returns it: the amount read from the column's
      text, the date read back as that day's UTC midnight. */
  function View(e: Expense): ExpenseView {
    ExpenseView(e.id, Amount(e), Midnight(e.date), e.description, e.category, e.createdAt)
  }

  function Views(es: seq<Expense>): (vs: seq<ExpenseView>)
    ensures |vs| == |es|
    ensures forall i :: 0 <= i < |es| ==> vs[i] == View(es[i])
  {
    seq(|es|, i requires 0 <= i < |es| => View(es[i]))
  }

  function Sample(id: int, cents: int, day: int, description: string, category: Category): ExpenseView {
    var at := Midnight(CalDate(2024, 1, day));
    ExpenseView(id, Money.Units(cents), at, description, category, at)
  }

  /** The built-in records shown when the server cannot be reached. */
  const Samples: seq<ExpenseView> := [
    Sample(1, 1250, 15, "Coffee and pastry", Food),
    Sample(2, 4500, 14, "Gas station fill-up", Transport),
    Sample(3, 120000, 1, "Monthly rent payment", Housing),
    Sample(4, 2599, 12, "Movie tickets", Entertainment)]

  // ------------------------------------------------------------ sequences

  function Keep(xs: seq<ExpenseView>, p: ExpenseView -> bool): (r: seq<ExpenseView>)
    ensures forall x :: x in r <==> x in xs && p(x)
    ensures |r| <= |xs|
  {
    if |xs| == 0 then [] else (if p(xs[0]) then [xs[0]] else []) + Keep(xs[1..], p)
  }

  /** `a` is `b` with some elements left out, the rest in their order. */
  predicate IsSubsequence(a: seq<ExpenseView>, b: seq<ExpenseView>)
    decreases |b|
  {
    if |b| == 0 then |a| == 0
    else (|a| > 0 && a[0] == b[0] && IsSubsequence(a[1..], b[1..])) || IsSubsequence(a, b[1..])
  }

  lemma {:induction false} KeepIsSubsequence(xs: seq<ExpenseView>, p: ExpenseView -> bool)
    ensures IsSubsequence(Keep(xs, p), xs)
  {
    if |xs| > 0 {
      KeepIsSubsequence(xs[1..], p);
      var rest := Keep(xs[1..], p);
      if p(xs[0]) {
        assert Keep(xs, p) == [xs[0]] + rest;
        assert ([xs[0]] + rest)[1..] == rest;
      } else {
        assert Keep(xs, p) == rest;
      }
    }
  }

  /** Two passes of `Keep` are one pass with both tests. */
  lemma {:induction false} KeepKeep(xs: seq<ExpenseView>, p: ExpenseView -> bool, q: ExpenseView -> bool, both: ExpenseView -> bool)
    requires forall x :: both(x) == (p(x) && q(x))
    ensures Keep(Keep(xs, p), q) == Keep(xs, both)
  {
    if |xs| > 0 {
      KeepKeep(xs[1..], p, q, both);
      var rest := Keep(xs[1..], p);
      if p(xs[0]) {
        assert Keep(xs, p) == [xs[0]] + rest;
        assert ([xs[0]] + rest)[1..] == rest;
      } else {
        assert Keep(xs, p) == rest;
      }
    }
  }

  // ------------------------------------------------------------- loading

  /** The argument a load sends: the filter object when it has any key,
      otherwise no filter at all. */
  function QueryArgument(st: FilterState): (q: Option<Schema.Filter>)
    ensures q.None? <==> st.category == Missing && st.month == Missing && st.year == Missing
    ensures q.Some? ==> q.value == ToFilter(st)
  {
    if st.category == Missing && st.month == Missing && st.year == Missing then None
    else Some(ToFilter(st))
  }

  /** The fallback's category pass. */
  predicate CategoryMatch(st: FilterState, v: ExpenseView) {
    st.category.Given? && v.category == st.category.value
  }

  /** The fallback's month-and-year pass. */
  predicate MonthYearMatch(st: FilterState, v: ExpenseView) {
    st.month.Given? && st.year.Given? && v.date.day.month == st.month.value && v.date.day.year == st.year.value
  }

  /** The fallback's test: the category when one is set, and month with year
      only when both are set. */
  predicate FallbackKeeps(st: FilterState, v: ExpenseView) {
    && (CategoryTruthy(st.category) ==> CategoryMatch(st, v))
    && (NumberTruthy(st.month) && NumberTruthy(st.year) ==> MonthYearMatch(st, v))
  }

  /** The fallback filter as written: a category pass, then a month-and-year
      pass. Together they keep exactly the records the fallback's test
      accepts, in their original order. */
  function FallbackSelect(st: FilterState, xs: seq<ExpenseView>): (r: seq<ExpenseView>)
    ensures r == Keep(xs, v => FallbackKeeps(st, v))
    ensures forall v :: v in r <==> v in xs && FallbackKeeps(st, v)
    ensures IsSubsequence(r, xs)
  {
    var c := (v: ExpenseView) => CategoryTruthy(st.category) ==> CategoryMatch(st, v);
    var d := (v: ExpenseView) => NumberTruthy(st.month) && NumberTruthy(st.year) ==> MonthYearMatch(st, v);
    var byCategory := if CategoryTruthy(st.category) then Keep(xs, v => CategoryMatch(st, v)) else xs;
    var r := if NumberTruthy(st.month) && NumberTruthy(st.year) then Keep(byCategory, v => MonthYearMatch(st, v))
             else byCategory;
    assert byCategory == Keep(xs, c) by {
      if CategoryTruthy(st.category) {
        KeepSame(xs, c, v => CategoryMatch(st, v));
      } else {
        KeepAll(xs, c);
      }
    }
    assert r == Keep(byCategory, d) by {
      if NumberTruthy(st.month) && NumberTruthy(st.year) {
        KeepSame(byCategory, d, v => MonthYearMatch(st, v));
      } else {
        KeepAll(byCategory, d);
      }
    }
    KeepKeep(xs, c, d, v => FallbackKeeps(st, v));
    KeepIsSubsequence(xs, v => FallbackKeeps(st, v));
    r
  }

  lemma {:induction false} KeepAll(xs: seq<ExpenseView>, p: ExpenseView -> bool)
    requires forall x :: p(x)
    ensures Keep(xs, p) == xs
  {
    if |xs| > 0 {
      KeepAll(xs[1..], p);
    }
  }

  lemma {:induction false} KeepSame(xs: seq<ExpenseView>, p: ExpenseView -> bool, q: ExpenseView -> bool)
    requires forall x :: p(x) == q(x)
    ensures Keep(xs, p) == Keep(xs, q)
  {
    if |xs| > 0 {
      KeepSame(xs[1..], p, q);
    }
  }

  /** The server's test, on a record as the page holds it. */
  predicate ServerSelects(q: Option<Schema.Filter>, v: ExpenseView) {
    q.None? ||
    var f := q.value;
    && (f.category.None? || v.category == f.category.value)
    && (f.month.None? || v.date.day.month == f.month.value)
    && (f.year.None? || v.date.day.year == f.year.value)
  }

  lemma ServerSelectsView(q: Option<Schema.Filter>, e: Expense)
    ensures ServerSelects(q, View(e)) <==> Handlers.Selects(q, e)
  {
  }

  /** The fallback is never stricter than the server: what the server would
      return for the page's filter, the fallback keeps too. */
  lemma ServerWithinFallback(st: FilterState, v: ExpenseView)
    ensures ServerSelects(QueryArgument(st), v) ==> FallbackKeeps(st, v)
  {
  }

  /** With month and year either both set or both unset, the fallback and
      the server agree. */
  lemma FallbackAgreesWhenPaired(st: FilterState, v: ExpenseView)
    requires st.month.Given? ==> st.month.value != 0
    requires st.year.Given? ==> st.year.value != 0
    requires st.month.Given? <==> st.year.Given?
    ensures ServerSelects(QueryArgument(st), v) <==> FallbackKeeps(st, v)
  {
  }

  /** A lone month is ignored by the fallback: it keeps every record,
      while the server's test drops each record from another month. */
  lemma LoneMonthIgnoredByFallback(m: int, xs: seq<ExpenseView>)
    requires m != 0
    ensures var st := FilterState(Missing, Given(m), Missing);
            && FallbackSelect(st, xs) == xs
            && forall v :: v in xs && v.date.day.month != m ==> !ServerSelects(QueryArgument(st), v)
  {
    var st := FilterState(Missing, Given(m), Missing);
    KeepAll(xs, v => FallbackKeeps(st, v));
  }

  /** Every sample is dated in January 2024, so asking for any other month
      alone keeps all of them in the fallback and none at the server. */
  lemma SamplesInJanuary()
    ensures forall v :: v in Samples ==> v.date.day.month == 1 && v.date.day.year == 2024
  {
  }

  /** `loadExpenses`: the server's answer replaces the list; a failed call
      shows the filtered samples. */
  function LoadExpenses(st: FilterState, answer: Option<seq<ExpenseView>>): (list: seq<ExpenseView>)
    ensures answer.Some? ==> list == answer.value
    ensures answer.None? ==> IsSubsequence(list, Samples)
    ensures answer.None? ==> forall v :: v in list <==> v in Samples && FallbackKeeps(st, v)
  {
    if answer.Some? then answer.value else FallbackSelect(st, Samples)
  }

  /** A load answered by the server shows exactly the rows the page's
      filter selects, nothing merged from before. */
  lemma LoadShowsServerRows(s: Store, st: FilterState)
    requires Valid(s)
    ensures var list := LoadExpenses(st, Some(Views(Handlers.GetExpenses(s, QueryArgument(st)))));
            forall v :: v in list <==> exists e :: e in s.rows.Values && v == View(e) && Handlers.Selects(QueryArgument(st), e)
  {
    var rows := Handlers.GetExpenses(s, QueryArgument(st));
    var list := Views(rows);
    forall v | v in list
      ensures exists e :: e in s.rows.Values && v == View(e) && Handlers.Selects(QueryArgument(st), e)
    {
      var i :| 0 <= i < |list| && list[i] == v;
      assert rows[i] in rows;
    }
    forall e | e in s.rows.Values && Handlers.Selects(QueryArgument(st), e)
      ensures View(e) in list
    {
      var i :| 0 <= i < |rows| && rows[i] == e;
      assert list[i] == View(e);
    }
  }

  // ------------------------------------------------------------ creating

  /** What the form hands to `handleCreateExpense`. */
  datatype NewExpense = NewExpense(amount: real, date: Instant, description: string, category: Category)

  /** `handleCreateExpense`: the server's record, or when the call fails a
      local one stamped with `localId` and `now`, goes in front of the list. */
  function HandleCreate(list: seq<ExpenseView>, data: NewExpense, answer: Option<ExpenseView>, localId: int, now: Instant): (r: seq<ExpenseView>)
    ensures |r| == |list| + 1 && r[1..] == list
    ensures answer.Some? ==> r[0] == answer.value
    ensures answer.None? ==> && r[0].id == localId && r[0].createdAt == now
                             && r[0].amount == data.amount && r[0].date == data.date
                             && r[0].description == data.description && r[0].category == data.category
  {
    var created :=
      if answer.Some? then answer.value
      else ExpenseView(localId, data.amount, data.date, data.description, data.category, now);
    [created] + list
  }

  // ------------------------------------------------------------- summary

  /** The "Total Expenses" figure: the sum of the listed amounts. An empty
      list totals 0, and amounts that are not negative total at least 0. */
  function Total(list: seq<ExpenseView>): (t: real)
    ensures |list| == 0 ==> t == 0.0
    ensures NoNegativeAmounts(list) ==> t >= 0.0
  {
    if |list| == 0 then 0.0 else list[0].amount + Total(list[1..])
  }

  /** Totals add up over a split list. */
  lemma {:induction false} TotalAppend(a: seq<ExpenseView>, b: seq<ExpenseView>)
    ensures Total(a + b) == Total(a) + Total(b)
  {
    if |a| == 0 {
      assert a + b == b;
    } else {
      TotalAppend(a[1..], b);
      assert (a + b)[1..] == a[1..] + b;
    }
  }

  /** The records dated in the month and year of `today`. */
  predicate InMonthOf(today: Instant, v: ExpenseView) {
    v.date.day.month == today.day.month && v.date.day.year == today.day.year
  }

  /** The "This Month" figure: the sum over records dated in the current
      month of the current year. Over amounts that are not negative it lies
      between 0 and the total. */
  function MonthlyTotal(list: seq<ExpenseView>, today: Instant): (t: real)
    ensures |list| == 0 ==> t == 0.0
    ensures NoNegativeAmounts(list) ==> 0.0 <= t <= Total(list)
  {
    var mine := (v: ExpenseView) => InMonthOf(today, v);
    var t := Total(Keep(list, mine));
    if NoNegativeAmounts(list) then SubtotalAtMostTotal(list, mine); t else t
  }

  /** The month's figure grows by a record's amount exactly when the record
      is dated in the current month; together with the empty list's 0 this
      makes it the sum over that month's records. */
  lemma MonthlyTotalPrepend(v: ExpenseView, list: seq<ExpenseView>, today: Instant)
    ensures MonthlyTotal([v] + list, today) ==
            (if InMonthOf(today, v) then v.amount else 0.0) + MonthlyTotal(list, today)
  {
    var mine := (x: ExpenseView) => InMonthOf(today, x);
    var rest := Keep(list, mine);
    assert ([v] + list)[1..] == list;
    if InMonthOf(today, v) {
      assert Keep([v] + list, mine) == [v] + rest;
      assert ([v] + rest)[1..] == rest;
    } else {
      assert Keep([v] + list, mine) == rest;
    }
  }

  predicate NoNegativeAmounts(list: seq<ExpenseView>) {
    forall i :: 0 <= i < |list| ==> list[i].amount >= 0.0
  }

  /** Creating adds the new amount to the total, one record to the list, and
      the amount to the month's figure when the new record is dated in the
      current month. */
  lemma CreateUpdatesSummary(list: seq<ExpenseView>, data: NewExpense, answer: Option<ExpenseView>, localId: int, now: Instant, today: Instant)
    ensures var r := HandleCreate(list, data, answer, localId, now);
            && Total(r) == r[0].amount + Total(list)
            && |r| == |list| + 1
            && MonthlyTotal(r, today) == (if InMonthOf(today, r[0]) then r[0].amount else 0.0) + MonthlyTotal(list, today)
  {
    var r := HandleCreate(list, data, answer, localId, now);
    assert r == [r[0]] + list;
    MonthlyTotalPrepend(r[0], list, today);
  }

  /** Over amounts that are not negative, the month's figure never exceeds
      the total. */
  lemma {:induction false} SubtotalAtMostTotal(list: seq<ExpenseView>, p: ExpenseView -> bool)
    requires NoNegativeAmounts(list)
    ensures 0.0 <= Total(Keep(list, p)) <= Total(list)
  {
    if |list| > 0 {
      SubtotalAtMostTotal(list[1..], p);
      var rest := Keep(list[1..], p);
      assert list[0].amount >= 0.0;
      if p(list[0]) {
        assert Keep(list, p) == [list[0]] + rest;
        assert ([list[0]] + rest)[1..] == rest;
        assert Total(Keep(list, p)) == list[0].amount + Total(rest);
      } else {
        assert Keep(list, p) == rest;
      }
    }
  }

  /** The samples: four records summing to 1283.49. */
  lemma SampleSummary()
    ensures |Samples| == 4 && Total(Samples) == 1283.49
  {
    assert Samples[1..][1..][1..][1..] == [];
  }
}

=== FILE: calendar.dfy ===
/** Calendar days, instants and the `YYYY-MM-DD` text of a date column. */
module Calendar {
  import opened Outcomes
  import opened Decimal

  /** A day of the proleptic Gregorian calendar, as JavaScript's `Date` and the
      date column see it. Year 0 is 1 BC. */
  datatype CalDate = CalDate(year: int, month: int, day: int)

  /** An instant: a UTC calendar day and the milliseconds elapsed since its
      midnight. A JavaScript `Date` and a timestamp column both hold one. */
  datatype Instant = Instant(day: CalDate, millis: int)

  const MillisPerDay: int := 86_400_000

  /** The years a JavaScript `Date` can represent, rounded to whole years. */
  const MinYear: int := -271_821
  const MaxYear: int := 275_760

  predicate IsLeapYear(y: int) {
    y % 4 == 0 && (y % 100 != 0 || y % 400 == 0)
  }

  function DaysInMonth(y: int, m: int): (n: int)
    requires 1 <= m <= 12
    ensures 28 <= n <= 31
    ensures m == 2 ==> (n == 29 <==> IsLeapYear(y))
  {
    if m == 2 then (if IsLeapYear(y) then 29 else 28)
    else if m == 4 || m == 6 || m == 9 || m == 11 then 30
    else 31
  }

  predicate ValidDate(d: CalDate) {
    && MinYear <= d.year <= MaxYear
    && 1 <= d.month <= 12
    && 1 <= d.day <= DaysInMonth(d.year, d.month)
  }

  predicate ValidInstant(t: Instant) {
    ValidDate(t.day) && 0 <= t.millis < MillisPerDay
  }

  /** The instant `new Date("YYYY-MM-DD")` denotes: midnight UTC of that day. */
  function Midnight(d: CalDate): (t: Instant)
    ensures t.day == d && t.millis == 0
    ensures ValidDate(d) ==> ValidInstant(t)
  {
    Instant(d, 0)
  }

  /** `t.toISOString().split('T')[0]`: the UTC calendar day in ISO 8601 form,
      four-digit years for 0..9999 and a signed six-digit year otherwise. */
  function IsoDateText(d: CalDate): (s: string)
    requires ValidDate(d)
    ensures 0 <= d.year <= 9999 ==> |s| == 10 && s[4] == '-' && s[7] == '-'
    ensures !(0 <= d.year <= 9999) ==> |s| == 13 && (s[0] == '+' || s[0] == '-')
  {
    var yearText :=
      if 0 <= d.year <= 9999 then PadDigits(d.year, 4)
      else if d.year < 0 then "-" + PadDigits(-d.year, 6)
      else "+" + PadDigits(d.year, 6);
    yearText + "-" + PadDigits(d.month, 2) + "-" + PadDigits(d.day, 2)
  }

  /** Reads the four-digit `YYYY-MM-DD` form (the form a date input yields and
      a date column prints); anything else, or a day the calendar does not
      have, is rejected. */
  function ParseIsoDate(s: string): (r: Option<CalDate>)
    ensures r.Some? ==> ValidDate(r.value) && 0 <= r.value.year <= 9999
  {
    if |s| != 10 || s[4] != '-' || s[7] != '-' then None
    else if !AllDigits(s[..4]) || !AllDigits(s[5..7]) || !AllDigits(s[8..]) then None
    else
      var d := CalDate(DigitsValue(s[..4]), DigitsValue(s[5..7]), DigitsValue(s[8..]));
      DigitsBelowPow10(s[..4]);
      if ValidDate(d) then Some(d) else None
  }

  lemma IsoDateTextParses(d: CalDate)
    requires ValidDate(d) && 0 <= d.year <= 9999
    ensures ParseIsoDate(IsoDateText(d)) == Some(d)
  {
    var y, m, dd := PadDigits(d.year, 4), PadDigits(d.month, 2), PadDigits(d.day, 2);
    var s := IsoDateText(d);
    assert s == y + "-" + m + "-" + dd;
    assert s[..4] == y && s[5..7] == m && s[8..] == dd;
  }

  lemma ParsedIsoDateIsCanonical(s: string)
    requires ParseIsoDate(s).Some?
    ensures IsoDateText(ParseIsoDate(s).value) == s
  {
    var y, m, dd := s[..4], s[5..7], s[8..];
    var d := ParseIsoDate(s).value;
    assert d == CalDate(DigitsValue(y), DigitsValue(m), DigitsValue(dd));
    PadDigitsOfValue(y);
    PadDigitsOfValue(m);
    PadDigitsOfValue(dd);
    assert IsoDateText(d) == PadDigits(d.year, 4) + "-" + PadDigits(d.month, 2) + "-" + PadDigits(d.day, 2);
    assert s == y + "-" + m + "-" + dd;
  }
}

=== FILE: categories.dfy ===
/** The closed set of expense categories, shared by the validation enum, the
    column's enum type and the client's select lists. */
module Categories {
  import opened Outcomes

  datatype Category = Food | Transport | Housing | Entertainment | Utilities | Shopping | Salary

  /** The literal each category travels as. */
  function Name(c: Category): string {
    match c
    case Food => "Food"
    case Transport => "Transport"
    case Housing => "Housing"
    case Entertainment => "Entertainment"
    case Utilities => "Utilities"
    case Shopping => "Shopping"
    case Salary => "Salary"
  }

  /** The values of the validation enum, in declaration order. */
  const SchemaValues: seq<string> :=
    ["Food", "Transport", "Housing", "Entertainment", "Utilities", "Shopping", "Salary"]

  /** The values of the column's enum type, in declaration order. */
  const ColumnValues: seq<string> :=
    ["Food", "Transport", "Housing", "Entertainment", "Utilities", "Shopping", "Salary"]

  /** The categories the client offers, in display order. */
  const Offered: seq<Category> :=
    [Food, Transport, Housing, Entertainment, Utilities, Shopping, Salary]

  /** Enum validation: the category a literal names, or rejection. */
  function Parse(s: string): (r: Option<Category>)
    ensures r.Some? <==> s in SchemaValues
    ensures r.Some? ==> Name(r.value) == s
  {
    if s == "Food" then Some(Food)
    else if s == "Transport" then Some(Transport)
    else if s == "Housing" then Some(Housing)
    else if s == "Entertainment" then Some(Entertainment)
    else if s == "Utilities" then Some(Utilities)
    else if s == "Shopping" then Some(Shopping)
    else if s == "Salary" then Some(Salary)
    else None
  }

  lemma NameParses(c: Category)
    ensures Parse(Name(c)) == Some(c)
    ensures Name(c) in SchemaValues
  {
  }

  lemma NamesDistinct(c: Category, d: Category)
    ensures Name(c) == Name(d) <==> c == d
  {
    NameParses(c);
    NameParses(d);
  }

  /** The stored enum admits exactly the literals validation admits: every
      category can be stored, and every stored value reads back as the
      category of that name. */
  lemma ColumnEnumMatchesSchema()
    ensures ColumnValues == SchemaValues
    ensures forall c :: Name(c) in ColumnValues
    ensures forall s :: s in ColumnValues <==> Parse(s).Some?
    ensures forall s :: s in ColumnValues ==> Name(Parse(s).value) == s
  {
    forall c ensures Name(c) in ColumnValues {
      NameParses(c);
    }
  }

  /** The client lists every category exactly once. */
  lemma OfferedIsComplete(c: Category)
    ensures c in Offered
    ensures |Offered| == 7
    ensures forall i, j :: 0 <= i < j < |Offered| ==> Offered[i] != Offered[j]
  {
  }
}

=== FILE: decimal.dfy ===
/** Decimal text: the `toString`, `parseInt` and `parseFloat` conversions the
    client uses on numbers, restricted to plain base-10 notation. */
module Decimal {
  import opened Outcomes

  predicate IsDigit(c: char) {
    '0' <= c <= '9'
  }

  predicate AllDigits(s: string) {
    forall i :: 0 <= i < |s| ==> IsDigit(s[i])
  }

  function DigitValue(c: char): nat
    requires IsDigit(c)
  {
    (c as int - '0' as int) as nat
  }

  function DigitChar(d: nat): (c: char)
    requires d < 10
    ensures IsDigit(c) && DigitValue(c) == d
  {
    ('0' as int + d) as char
  }

  function Pow10(n: nat): (p: nat)
    ensures p >= 1
  {
    if n == 0 then 1 else 10 * Pow10(n - 1)
  }

  /** The value of a string of decimal digits, most significant first. */
  function DigitsValue(s: string): nat
    requires AllDigits(s)
  {
    if |s| == 0 then 0 else 10 * DigitsValue(s[..|s| - 1]) + DigitValue(s[|s| - 1])
  }

  /** The shortest decimal rendering of a natural number (`n.toString()`). */
  function NatToDecimal(n: nat): (s: string)
    ensures |s| >= 1 && AllDigits(s)
    ensures DigitsValue(s) == n
    ensures |s| > 1 ==> s[0] != '0'
  {
    if n < 10 then [DigitChar(n)]
    else
      var s := NatToDecimal(n / 10) + [DigitChar(n % 10)];
      assert s[..|s| - 1] == NatToDecimal(n / 10);
      s
  }

  /** `n.toString()` for an integer: a minus sign before the magnitude. */
  function IntToDecimal(n: int): (s: string)
    ensures |s| >= 1
    ensures n >= 0 ==> s == NatToDecimal(n)
    ensures n < 0 ==> s == "-" + NatToDecimal(-n)
  {
    if n >= 0 then NatToDecimal(n) else "-" + NatToDecimal(-n)
  }

  /** `n` written in exactly `width` digits, with leading zeros. */
  function PadDigits(n: nat, width: nat): (s: string)
    requires n < Pow10(width)
    ensures |s| == width && AllDigits(s)
    ensures DigitsValue(s) == n
  {
    if width == 0 then ""
    else
      var s := PadDigits(n / 10, width - 1) + [DigitChar(n % 10)];
      assert s[..|s| - 1] == PadDigits(n / 10, width - 1);
      s
  }

  /** Reading `width` digits back gives the text they were read from. */
  lemma {:induction false} PadDigitsOfValue(s: string)
    requires AllDigits(s)
    ensures DigitsValue(s) < Pow10(|s|)
    ensures PadDigits(DigitsValue(s), |s|) == s
  {
    DigitsBelowPow10(s);
    if |s| > 0 {
      var init := s[..|s| - 1];
      PadDigitsOfValue(init);
      assert DigitsValue(s) / 10 == DigitsValue(init);
      assert DigitsValue(s) % 10 == DigitValue(s[|s| - 1]);
      assert s == init + [s[|s| - 1]];
    }
  }

  /** The longest prefix of `s` made of digits. */
  function LeadingDigits(s: string): (d: string)
    ensures |d| <= |s| && d == s[..|d|]
    ensures AllDigits(d)
    ensures |d| < |s| ==> !IsDigit(s[|d|])
    ensures AllDigits(s) ==> d == s
  {
    if |s| == 0 || !IsDigit(s[0]) then ""
    else [s[0]] + LeadingDigits(s[1..])
  }

  lemma {:induction false} LeadingDigitsOfDigitsThen(d: string, rest: string)
    requires AllDigits(d)
    requires |rest| == 0 || !IsDigit(rest[0])
    ensures LeadingDigits(d + rest) == d
  {
    if |d| > 0 {
      assert (d + rest)[1..] == d[1..] + rest;
      LeadingDigitsOfDigitsThen(d[1..], rest);
    } else {
      assert d + rest == rest;
    }
  }

  /** The characters JavaScript's `trim`, `parseInt` and `parseFloat` skip as
      white space: tab, line feed, line tabulation, form feed and carriage
      return (U+0009 to U+000D), the line and paragraph separators, the byte
      order mark, and every Unicode space separator (space, no-break space,
      ogham space mark, U+2000 to U+200A, narrow no-break space, medium
      mathematical space and ideographic space). */
  predicate IsJsSpace(c: char) {
    if c <= ' ' then c == ' ' || '\t' <= c <= '\r'
    else if c < '\U{00A0}' then false
    else
      || c == '\U{00A0}' || c == '\U{1680}' || '\U{2000}' <= c <= '\U{200A}'
      || c == '\U{2028}' || c == '\U{2029}' || c == '\U{202F}' || c == '\U{205F}'
      || c == '\U{3000}' || c == '\U{FEFF}'
  }

  /** The text after its leading white space. */
  function SkipSpaces(s: string): (t: string)
    ensures |t| <= |s| && t == s[|s| - |t|..]
    ensures |t| > 0 ==> !IsJsSpace(t[0])
    ensures forall i :: 0 <= i < |s| - |t| ==> IsJsSpace(s[i])
    ensures |s| > 0 && !IsJsSpace(s[0]) ==> t == s
  {
    if |s| > 0 && IsJsSpace(s[0]) then
      var t := SkipSpaces(s[1..]);
      assert forall i :: 0 <= i < |s| - |t| ==> IsJsSpace(s[i]) by {
        forall i | 1 <= i < |s| - |t|
          ensures IsJsSpace(s[i])
        {
          assert s[i] == s[1..][i - 1];
        }
      }
      t
    else s
  }

  /** An optional sign and the longest run of digits after it, as an
      integer; no digit at all is NaN (`None`). */
  function SignedDigits(s: string): (r: Option<int>)
    ensures r.Some? ==> exists i :: 0 <= i < |s| && IsDigit(s[i])
    ensures |s| > 0 && AllDigits(s) ==> r == Some(DigitsValue(s) as int)
    ensures |s| > 1 && s[0] == '-' && AllDigits(s[1..]) ==> r == Some(-(DigitsValue(s[1..]) as int))
  {
    var neg := |s| > 0 && s[0] == '-';
    var body := if |s| > 0 && (s[0] == '-' || s[0] == '+') then s[1..] else s;
    var d := LeadingDigits(body);
    if |d| == 0 then None
    else
      assert IsDigit(s[|s| - |body|]);
      Some(if neg then -(DigitsValue(d) as int) else DigitsValue(d))
  }

  /** `parseInt(s, 10)`: leading white space is skipped, then an optional sign
      and the digits after it are read. */
  function ParseInt(s: string): (r: Option<int>)
    ensures r.Some? ==> exists i :: 0 <= i < |s| && IsDigit(s[i])
    ensures |s| > 0 && AllDigits(s) ==> r == Some(DigitsValue(s) as int)
    ensures |s| > 1 && s[0] == '-' && AllDigits(s[1..]) ==> r == Some(-(DigitsValue(s[1..]) as int))
  {
    var t := SkipSpaces(s);
    DigitInSuffix(s, t);
    if |s| > 0 && !IsJsSpace(s[0]) then
      assert t == s;
      SignedDigits(s)
    else
      SignedDigits(t)
  }

  /** A digit of a suffix is a digit of the whole text. */
  lemma DigitInSuffix(s: string, t: string)
    requires |t| <= |s| && t == s[|s| - |t|..]
    ensures (exists i :: 0 <= i < |t| && IsDigit(t[i])) ==> exists i :: 0 <= i < |s| && IsDigit(s[i])
  {
    if i :| 0 <= i < |t| && IsDigit(t[i]) {
      assert s[|s| - |t| + i] == t[i];
    }
  }

  /** White space in front of text is skipped as a whole. */
  lemma {:induction false} SkipBlankPrefix(w: string, t: string)
    requires forall k :: 0 <= k < |w| ==> IsJsSpace(w[k])
    ensures SkipSpaces(w + t) == SkipSpaces(t)
  {
    if |w| == 0 {
      assert w + t == t;
    } else {
      assert (w + t)[0] == w[0];
      assert (w + t)[1..] == w[1..] + t;
      SkipBlankPrefix(w[1..], t);
    }
  }

  /** `parseInt` ignores leading white space: text after any run of it reads
      as the text alone. */
  lemma ParseIntSkipsSpaces(w: string, t: string)
    requires forall k :: 0 <= k < |w| ==> IsJsSpace(w[k])
    ensures ParseInt(w + t) == ParseInt(t)
  {
    SkipBlankPrefix(w, t);
    assert ParseInt(w + t) == SignedDigits(SkipSpaces(w + t));
    assert ParseInt(t) == SignedDigits(SkipSpaces(t));
  }

  /** `parseInt` reads back what `toString` writes. */
  lemma IntToDecimalParses(n: int)
    ensures SignedDigits(IntToDecimal(n)) == Some(n)
    ensures ParseInt(IntToDecimal(n)) == Some(n)
  {
    if n < 0 {
      assert IntToDecimal(n)[1..] == NatToDecimal(-n);
    }
  }

  /** The value of a fraction's digits: "25" is 0.25. */
  function FractionValue(f: string): (v: real)
    requires AllDigits(f)
    ensures 0.0 <= v < 1.0
  {
    DigitsBelowPow10(f);
    RatioBelowOne(DigitsValue(f) as real, Pow10(|f|) as real);
    DigitsValue(f) as real / Pow10(|f|) as real
  }

  lemma RatioBelowOne(a: real, b: real)
    requires 0.0 <= a < b
    ensures 0.0 <= a / b < 1.0
  {
    assert a / b * b == a;
  }

  lemma {:induction false} DigitsBelowPow10(f: string)
    requires AllDigits(f)
    ensures DigitsValue(f) < Pow10(|f|)
  {
    if |f| > 0 {
      DigitsBelowPow10(f[..|f| - 1]);
    }
  }

  /** A decimal numeral as `parseFloat` reads it: a sign, the digits before
      the point, the digits after it, and the exponent. */
  datatype Numeral = Numeral(negative: bool, whole: string, fraction: string, exponent: int)

  /** At least one digit, on one side of the point or the other. */
  predicate WellFormed(n: Numeral) {
    AllDigits(n.whole) && AllDigits(n.fraction) && (|n.whole| > 0 || |n.fraction| > 0)
  }

  /** The exponent part after a mantissa: `e` or `E` and a signed run of
      digits. Without one (a bare `e` included) the exponent is 0 and nothing
      more is read. */
  function ExponentOf(tail: string): int {
    if |tail| > 0 && (tail[0] == 'e' || tail[0] == 'E') then
      match SignedDigits(tail[1..])
      case Some(k) => k
      case None => 0
    else 0
  }

  /** The rest of a numeral after its leading digits `whole`: a point and
      digits, then an exponent; `None` (NaN) when there is no digit on either
      side of the point. */
  function ScanAfterWhole(whole: string, rest: string): (r: Option<Numeral>)
    requires AllDigits(whole)
    ensures r.Some? ==> WellFormed(r.value) && !r.value.negative && r.value.whole == whole
    ensures r.Some? && |whole| == 0 ==> |rest| > 1 && IsDigit(rest[1])
    ensures |whole| > 0 && |rest| == 0 ==> r == Some(Numeral(false, whole, "", 0))
  {
    var point := |rest| > 0 && rest[0] == '.';
    var fraction := if point then LeadingDigits(rest[1..]) else "";
    var tail := if point then rest[1 + |fraction|..] else rest;
    if |whole| == 0 && |fraction| == 0 then None
    else Some(Numeral(false, whole, fraction, ExponentOf(tail)))
  }

  /** The numeral at the start of `body`, which has no leading white space or
      sign, read as far as it goes. */
  function ScanUnsigned(body: string): (r: Option<Numeral>)
    ensures r.Some? ==> WellFormed(r.value) && !r.value.negative
    ensures r.Some? ==> exists i :: 0 <= i < |body| && IsDigit(body[i])
    ensures |body| > 0 && AllDigits(body) ==> r == Some(Numeral(false, body, "", 0))
  {
    var whole := LeadingDigits(body);
    var r := ScanAfterWhole(whole, body[|whole|..]);
    if r.Some? && |whole| > 0 then
      assert IsDigit(body[0]);
      r
    else if r.Some? then
      assert IsDigit(body[1]);
      r
    else r
  }

  /** An optional sign, then the numeral after it. */
  function ScanSigned(t: string): (r: Option<Numeral>)
    ensures r.Some? ==> WellFormed(r.value)
    ensures r.Some? ==> exists i :: 0 <= i < |t| && IsDigit(t[i])
  {
    var negative := |t| > 0 && t[0] == '-';
    var body := if |t| > 0 && (t[0] == '-' || t[0] == '+') then t[1..] else t;
    DigitInSuffix(t, body);
    match ScanUnsigned(body)
    case None => None
    case Some(n) => Some(n.(negative := negative))
  }

  /** What `parseFloat` reads: leading white space is skipped, an optional
      sign is taken, and the numeral after it is scanned. */
  function ScanFloat(s: string): (r: Option<Numeral>)
    ensures r.Some? ==> WellFormed(r.value)
    ensures r.Some? ==> exists i :: 0 <= i < |s| && IsDigit(s[i])
    ensures |s| > 0 && AllDigits(s) ==> r == Some(Numeral(false, s, "", 0))
  {
    var t := SkipSpaces(s);
    DigitInSuffix(s, t);
    if |s| > 0 && AllDigits(s) then
      ScanSignedDigits(s);
      assert t == s;
      ScanSigned(t)
    else
      ScanSigned(t)
  }

  lemma ScanSignedDigits(s: string)
    requires |s| > 0 && AllDigits(s)
    ensures ScanSigned(s) == Some(Numeral(false, s, "", 0))
  {
    assert !(s[0] == '-' || s[0] == '+');
  }

  /** `m` times ten to the power `e`. */
  function Scale(m: real, e: int): real {
    if e >= 0 then m * Pow10(e) as real else m / Pow10(-e) as real
  }

  /** The exact value a numeral denotes. */
  function NumeralValue(n: Numeral): real
    requires WellFormed(n)
  {
    var v := Scale(DigitsValue(n.whole) as real + FractionValue(n.fraction), n.exponent);
    if n.negative then -v else v
  }

  /** `parseFloat(s)`: the value of the numeral at the start of `s`, or NaN
      (`None`). "Infinity" is not modelled. */
  function ParseFloat(s: string): (r: Option<real>)
    ensures r.Some? ==> exists i :: 0 <= i < |s| && IsDigit(s[i])
    ensures |s| > 0 && AllDigits(s) ==> r == Some(DigitsValue(s) as real)
  {
    match ScanFloat(s)
    case None => None
    case Some(n) => Some(NumeralValue(n))
  }

  /** A point and the fraction digits, when there are any. */
  function FractionText(f: string): string {
    if |f| > 0 then "." + f else ""
  }

  /** `e` and the exponent, when it is not 0. */
  function ExponentText(e: int): string {
    if e != 0 then "e" + IntToDecimal(e) else ""
  }

  /** The unsigned part of a numeral's canonical text. */
  function UnsignedText(n: Numeral): (u: string)
    requires WellFormed(n)
    ensures |u| > 0 && (IsDigit(u[0]) || u[0] == '.')
  {
    n.whole + FractionText(n.fraction) + ExponentText(n.exponent)
  }

  /** The canonical text of a numeral: its sign, its digits, a point only
      before fraction digits, and an exponent only when it is not 0. */
  function Render(n: Numeral): string
    requires WellFormed(n)
  {
    if n.negative then "-" + UnsignedText(n) else UnsignedText(n)
  }

  lemma ExponentTextRead(e: int)
    ensures ExponentOf(ExponentText(e)) == e
    ensures |ExponentText(e)| == 0 || ExponentText(e)[0] == 'e'
  {
    if e != 0 {
      var t := ExponentText(e);
      assert t[0] == 'e' && t[1..] == IntToDecimal(e);
      assert SignedDigits(t[1..]) == Some(e) by {
        IntToDecimalParses(e);
      }
    }
  }

  lemma FractionTextRead(f: string, et: string)
    requires AllDigits(f) && |f| > 0
    requires |et| == 0 || et[0] == 'e'
    ensures var rest := FractionText(f) + et;
            && |rest| > 0 && rest[0] == '.'
            && LeadingDigits(rest[1..]) == f
            && rest[1 + |f|..] == et
  {
    var rest := FractionText(f) + et;
    assert rest == ['.'] + (f + et);
    assert rest[1..] == f + et;
    LeadingDigitsOfDigitsThen(f, et);
    assert rest[1 + |f|..] == (f + et)[|f|..];
  }

  lemma ScanAfterWholeRender(w: string, f: string, e: int)
    requires AllDigits(w) && AllDigits(f) && (|w| > 0 || |f| > 0)
    ensures ScanAfterWhole(w, FractionText(f) + ExponentText(e)) == Some(Numeral(false, w, f, e))
  {
    var et := ExponentText(e);
    assert ExponentOf(et) == e && (|et| == 0 || et[0] == 'e') by {
      ExponentTextRead(e);
    }
    if |f| > 0 {
      ScanAfterWholePoint(w, f, et);
    } else {
      assert FractionText(f) + et == et;
      ScanAfterWholeNoPoint(w, et);
    }
  }

  lemma ScanAfterWholePoint(w: string, f: string, et: string)
    requires AllDigits(w) && AllDigits(f) && |f| > 0
    requires |et| == 0 || et[0] == 'e'
    ensures ScanAfterWhole(w, FractionText(f) + et) == Some(Numeral(false, w, f, ExponentOf(et)))
  {
    FractionTextRead(f, et);
  }

  lemma ScanAfterWholeNoPoint(w: string, et: string)
    requires AllDigits(w) && |w| > 0
    requires |et| == 0 || et[0] == 'e'
    ensures ScanAfterWhole(w, et) == Some(Numeral(false, w, "", ExponentOf(et)))
  {
  }

  lemma ScanUnsignedRender(w: string, f: string, e: int)
    requires AllDigits(w) && AllDigits(f) && (|w| > 0 || |f| > 0)
    ensures ScanUnsigned(w + FractionText(f) + ExponentText(e)) == Some(Numeral(false, w, f, e))
  {
    var rest := FractionText(f) + ExponentText(e);
    assert |rest| == 0 || rest[0] == '.' || rest[0] == 'e' by {
      ExponentTextRead(e);
    }
    ScanAfterWholeRender(w, f, e);
    ScanUnsignedConcat(w, rest, Some(Numeral(false, w, f, e)));
    ConcatAssoc(w, FractionText(f), ExponentText(e));
  }

  lemma ConcatAssoc(a: string, b: string, c: string)
    ensures a + b + c == a + (b + c)
  {
  }

  /** `ScanUnsigned` reads the leading digits, then the rest. */
  lemma ScanUnsignedConcat(w: string, rest: string, r: Option<Numeral>)
    requires AllDigits(w) && (|rest| == 0 || !IsDigit(rest[0]))
    requires ScanAfterWhole(w, rest) == r
    ensures ScanUnsigned(w + rest) == r
  {
    LeadingDigitsOfDigitsThen(w, rest);
    assert (w + rest)[|w|..] == rest;
  }

  /** Reading a numeral's canonical text gives the numeral back. */
  lemma ScanRender(n: Numeral)
    requires WellFormed(n)
    ensures ScanFloat(Render(n)) == Some(n)
  {
    var u := UnsignedText(n);
    assert ScanUnsigned(u) == Some(n.(negative := false)) by {
      ScanUnsignedRender(n.whole, n.fraction, n.exponent);
    }
    ScanFloatSigned(u, n.(negative := false));
  }

  /** `ScanFloat` on unsigned text and on the same text after a minus sign. */
  lemma ScanFloatSigned(u: string, m: Numeral)
    requires |u| > 0 && (IsDigit(u[0]) || u[0] == '.')
    requires ScanUnsigned(u) == Some(m) && !m.negative
    ensures ScanFloat(u) == Some(m)
    ensures ScanFloat("-" + u) == Some(m.(negative := true))
  {
    var s := "-" + u;
    assert ScanSigned(u) == Some(m);
    assert ScanSigned(s) == Some(m.(negative := true)) by {
      assert s[1..] == u;
    }
    ScanFloatUnspaced(u);
    ScanFloatUnspaced(s);
  }

  /** Text that starts with no white space is scanned from its start. */
  lemma ScanFloatUnspaced(s: string)
    requires |s| > 0 && !IsJsSpace(s[0])
    ensures ScanFloat(s) == ScanSigned(s)
  {
    assert SkipSpaces(s) == s;
  }

  /** `parseFloat` of a numeral's canonical text is the numeral's value. */
  lemma ParseFloatOfRender(n: Numeral)
    requires WellFormed(n)
    ensures ParseFloat(Render(n)) == Some(NumeralValue(n))
  {
    ScanRender(n);
  }

  /** An empty fraction is worth 0. */
  lemma FractionValueOfEmpty()
    ensures FractionValue("") == 0.0
  {
    assert DigitsValue("") == 0;
    assert Pow10(0) == 1;
  }

  /** Exponents scale the value, a minus sign negates it, and a bare `e` is
      not read. `parseFloat` reads an exponent: "1e3" is 1000. */
  lemma ParseFloatExponent()
    ensures ParseFloat("1e3") == Some(1000.0)
  {
    var n := Numeral(false, "1", "", 3);
    assert NumeralValue(n) == 1000.0 by {
      var m := DigitsValue(n.whole) as real + FractionValue(n.fraction);
      assert m == 1.0 by {
        assert DigitsValue("1") == 1 by { assert "1"[..0] == ""; }
        FractionValueOfEmpty();
      }
      assert Scale(m, 3) == 1000.0 by {
        assert Pow10(3) == 1000;
      }
    }
    assert Render(n) == "1e3" by {
      assert IntToDecimal(3) == "3";
      assert ExponentText(3) == "e3";
    }
    ParseFloatOfRender(n);
  }

  lemma FractionValueOfFive()
    ensures FractionValue("5") == 0.5
  {
    assert DigitsValue("5") == 5 by { assert "5"[..0] == ""; }
    assert Pow10(1) == 10;
  }

  lemma FractionValueOfFifty()
    ensures FractionValue("50") == 0.5
  {
    assert DigitsValue("50") == 50 by {
      assert "50"[..1] == "5";
      assert "5"[..0] == "";
    }
    assert Pow10(2) == 100;
  }

  /** A fraction and a negative exponent: "2.5e-1" is 0.25. */
  lemma ParseFloatNegativeExponent()
    ensures ParseFloat("2.5e-1") == Some(0.25)
  {
    var n := Numeral(false, "2", "5", -1);
    assert NumeralValue(n) == 0.25 by {
      var m := DigitsValue(n.whole) as real + FractionValue(n.fraction);
      assert m == 2.5 by {
        assert DigitsValue("2") == 2 by { assert "2"[..0] == ""; }
        FractionValueOfFive();
      }
      assert Scale(m, -1) == 0.25 by {
        assert Pow10(1) == 10;
      }
    }
    assert Render(n) == "2.5e-1" by {
      assert IntToDecimal(-1) == "-1";
      assert ExponentText(-1) == "e-1";
      assert FractionText("5") == ".5";
    }
    ParseFloatOfRender(n);
  }

  /** A sign and trailing zeros: "-12.50" is -12.5. */
  lemma ParseFloatNegative()
    ensures ParseFloat("-12.50") == Some(-12.5)
  {
    var n := Numeral(true, "12", "50", 0);
    assert NumeralValue(n) == -12.5 by {
      var m := DigitsValue(n.whole) as real + FractionValue(n.fraction);
      assert m == 12.5 by {
        assert DigitsValue("12") == 12 by {
          assert "12"[..1] == "1";
          assert "1"[..0] == "";
        }
        FractionValueOfFifty();
      }
      assert Scale(m, 0) == 12.5 by {
        assert Pow10(0) == 1;
      }
    }
    assert Render(n) == "-12.50" by {
      assert FractionText("50") == ".50";
      assert ExponentText(0) == "";
    }
    ParseFloatOfRender(n);
  }

  /** An `e` with no digits after it is not part of the number: "7e" is 7. */
  lemma ParseFloatBareExponent()
    ensures ParseFloat("7e") == Some(7.0)
  {
    assert ScanFloat("7e") == Some(Numeral(false, "7", "", 0)) by {
      ScanFloatUnspaced("7e");
      LeadingDigitsOfDigitsThen("7", "e");
      assert ScanUnsigned("7e") == ScanAfterWhole("7", "e") by {
        assert "7e"[1..] == "e";
      }
      assert "e"[1..] == "";
      assert SignedDigits("") == None;
      assert ExponentOf("e") == 0;
    }
    assert DigitsValue("7") == 7;
  }
}

=== FILE: expense_form.dfy ===
/** The "Add New Expense" form: its state, the amount field's parsing, the
    validity check that enables the submit button, and the submit guard. */
module ExpenseForm {
  import opened Outcomes
  import opened Calendar
  import opened Categories
  import Decimal
  import Schema

  /** The form's state. The category is `None` until one is chosen (the
      empty string in the form); the date is the date input's text. */
  datatype FormState = FormState(amount: real, date: string, description: string, category: Option<Category>)

  /** The form as it opens: amount 0, today's UTC date, nothing else. */
  function InitialForm(today: Instant): (f: FormState)
    requires ValidInstant(today)
    ensures f.amount == 0.0 && f.description == "" && f.category == None
    ensures 0 <= today.day.year <= 9999 ==> ParseIsoDate(f.date) == Some(today.day)
  {
    var f := FormState(0.0, IsoDateText(today.day), "", None);
    if 0 <= today.day.year <= 9999 then IsoDateTextParses(today.day); f else f
  }

  /** `parseFloat(text) || 0`: text that is not a number, and zero, give 0.
      A plain run of digits reads as its value, text with no digit as 0, and
      any other amount is what `parseFloat` reads. */
  function AmountFromText(text: string): (x: real)
    ensures |text| > 0 && Decimal.AllDigits(text) ==> x == Decimal.DigitsValue(text) as real
    ensures (forall i :: 0 <= i < |text| ==> !Decimal.IsDigit(text[i])) ==> x == 0.0
    ensures x != 0.0 ==> Decimal.ParseFloat(text) == Some(x)
  {
    match Decimal.ParseFloat(text)
    case None => 0.0
    case Some(v) => v
  }

  /** The amount input's change handler: only the amount changes, and text
      that is not a number leaves it 0. */
  function EditAmount(f: FormState, text: string): (g: FormState)
    ensures g.date == f.date && g.description == f.description && g.category == f.category
    ensures Decimal.ParseFloat(text).None? ==> g.amount == 0.0
    ensures Decimal.ParseFloat(text).Some? ==> g.amount == Decimal.ParseFloat(text).value
  {
    f.(amount := AmountFromText(text))
  }

  /** Text made only of JavaScript white space. */
  predicate Blank(s: string) {
    forall k :: 0 <= k < |s| ==> Decimal.IsJsSpace(s[k])
  }

  /** JavaScript's `trim`: the text without its leading and trailing blanks.
      It is empty exactly when the text is blank; `TrimIsInfix` says which
      part of the text it is. */
  function Trim(s: string): (t: string)
    ensures |t| <= |s|
    ensures |t| > 0 ==> !Decimal.IsJsSpace(t[0]) && !Decimal.IsJsSpace(t[|t| - 1])
    ensures |t| == 0 <==> Blank(s)
  {
    var start := Decimal.SkipSpaces(s);
    var t := TrimEnd(start);
    TrimmedShape(s, start, t);
    t
  }

  /** What is left after cutting blanks from both ends has no blank at
      either end, and is empty exactly when the text is blank. */
  lemma TrimmedShape(s: string, start: string, t: string)
    requires |start| <= |s| && start == s[|s| - |start|..]
    requires forall k :: 0 <= k < |s| - |start| ==> Decimal.IsJsSpace(s[k])
    requires |start| > 0 ==> !Decimal.IsJsSpace(start[0])
    requires |t| <= |start| && t == start[..|t|]
    requires forall k :: |t| <= k < |start| ==> Decimal.IsJsSpace(start[k])
    requires |t| > 0 ==> !Decimal.IsJsSpace(t[|t| - 1])
    ensures |t| > 0 ==> !Decimal.IsJsSpace(t[0]) && !Decimal.IsJsSpace(t[|t| - 1])
    ensures |t| == 0 <==> Blank(s)
  {
    if |t| > 0 {
      assert t[0] == start[0];
    }
    TrimSplit(s, start, t);
  }

  /** The trimmed text is a contiguous part of the text, with only blanks cut
      away on either side. */
  lemma TrimIsInfix(s: string)
    ensures exists i, j :: 0 <= i <= j <= |s| && Trim(s) == s[i..j] && Blank(s[..i]) && Blank(s[j..])
  {
    var start := Decimal.SkipSpaces(s);
    var t := TrimEnd(start);
    TrimSplit(s, start, t);
    assert Trim(s) == t;
    var i := |s| - |start|;
    var j := i + |t|;
    assert Trim(s) == s[i..j] && Blank(s[..i]) && Blank(s[j..]);
  }

  /** Cutting blanks from the front and then from the back leaves a middle
      part, with blanks on either side, that is empty exactly when the text is
      blank. */
  lemma TrimSplit(s: string, start: string, t: string)
    requires |start| <= |s| && start == s[|s| - |start|..]
    requires forall k :: 0 <= k < |s| - |start| ==> Decimal.IsJsSpace(s[k])
    requires |start| > 0 ==> !Decimal.IsJsSpace(start[0])
    requires |t| <= |start| && t == start[..|t|]
    requires forall k :: |t| <= k < |start| ==> Decimal.IsJsSpace(start[k])
    ensures var i := |s| - |start|;
            && t == s[i..i + |t|] && Blank(s[..i]) && Blank(s[i + |t|..])
            && (|t| == 0 <==> Blank(s))
  {
    var i := |s| - |start|;
    var j := i + |t|;
    assert t == s[i..j] by {
      assert start[..|t|] == s[i..j];
    }
    assert Blank(s[j..]) by {
      forall k | 0 <= k < |s| - j
        ensures Decimal.IsJsSpace(s[j..][k])
      {
        assert s[j..][k] == start[|t| + k];
      }
    }
    assert |t| > 0 ==> s[i] == start[0];
    BlankSplit(s, i, j);
  }

  /** Text is blank when what lies between a blank prefix and a blank suffix
      is empty, and only then. */
  lemma BlankSplit(s: string, i: int, j: int)
    requires 0 <= i <= j <= |s| && Blank(s[..i]) && Blank(s[j..])
    requires i < j ==> !Decimal.IsJsSpace(s[i])
    ensures i == j <==> Blank(s)
  {
    if i == j {
      forall k | 0 <= k < |s|
        ensures Decimal.IsJsSpace(s[k])
      {
        if k < i { assert s[k] == s[..i][k]; } else { assert s[k] == s[j..][k - j]; }
      }
    }
  }

  function TrimEnd(s: string): (t: string)
    ensures |t| <= |s| && t == s[..|t|]
    ensures forall k :: |t| <= k < |s| ==> Decimal.IsJsSpace(s[k])
    ensures |t| > 0 ==> !Decimal.IsJsSpace(t[|t| - 1])
  {
    if |s| > 0 && Decimal.IsJsSpace(s[|s| - 1]) then TrimEnd(s[..|s| - 1]) else s
  }

  /** `isValid`: a positive amount, a description that is not blank, and a
      chosen category. */
  function IsValid(f: FormState): (b: bool)
    ensures b <==> f.amount > 0.0 && !Blank(f.description) && f.category.Some?
  {
    f.amount > 0.0 && |Trim(f.description)| > 0 && f.category.Some?
  }

  /** The save button is enabled only for a valid form not already saving. */
  function SubmitEnabled(f: FormState, isLoading: bool): (b: bool)
    ensures b <==> !isLoading && f.amount > 0.0 && !Blank(f.description) && f.category.Some?
  {
    IsValid(f) && !isLoading
  }

  /** What `onSubmit` receives. The date is `new Date(text)`: the UTC midnight
      of the day the text names, or an Invalid Date (`None`). */
  datatype Payload = Payload(amount: real, date: Option<Instant>, description: string, category: Category)

  function SubmittedDate(text: string): (d: Option<Instant>)
    ensures d.Some? ==> ValidInstant(d.value) && d.value.millis == 0 && IsoDateText(d.value.day) == text
  {
    match ParseIsoDate(text)
    case Some(day) => ParsedIsoDateIsCanonical(text); Some(Midnight(day))
    case None => None
  }

  /** The text the date input holds for a day reads back as that day's UTC
      midnight. */
  lemma SubmittedDateOfIsoText(day: CalDate)
    requires ValidDate(day) && 0 <= day.year <= 9999
    ensures SubmittedDate(IsoDateText(day)) == Some(Midnight(day))
  {
    IsoDateTextParses(day);
  }

  /** `handleSubmit`: nothing is sent while no category is chosen; otherwise
      the form's fields, untrimmed, with the date text read as a date. */
  function HandleSubmit(f: FormState): (p: Option<Payload>)
    ensures p.Some? <==> f.category.Some?
    ensures p.Some? ==> p.value.amount == f.amount && p.value.description == f.description
                        && p.value.category == f.category.value && p.value.date == SubmittedDate(f.date)
  {
    if f.category.None? then None
    else Some(Payload(f.amount, SubmittedDate(f.date), f.description, f.category.value))
  }

  /** The payload as the create schema receives it. */
  function ToRaw(p: Payload): Schema.RawCreate {
    Schema.RawCreate(Schema.Present(p.amount), Schema.Present(p.date), Schema.Present(p.description),
                     Schema.Present(Name(p.category)))
  }

  /** A form that passes `isValid`, with a date the input accepts, submits a
      payload the server's create schema accepts, field for field. */
  lemma ClientValidImpliesServerValid(f: FormState)
    requires IsValid(f) && ParseIsoDate(f.date).Some?
    ensures HandleSubmit(f).Some?
    ensures var r := Schema.ValidateCreate(ToRaw(HandleSubmit(f).value));
            && r.Ok?
            && r.value == Schema.CreateInput(f.amount, Midnight(ParseIsoDate(f.date).value), f.description, f.category.value)
  {
    NameParses(f.category.value);
    var r := Schema.ValidateCreate(ToRaw(HandleSubmit(f).value));
    assert Categories.Name(r.value.category) == Categories.Name(f.category.value);
    NamesDistinct(r.value.category, f.category.value);
  }

  /** The client is stricter than the server: a blank description passes
      the schema but not `isValid`. */
  lemma BlankDescriptionOnlyServerValid(day: CalDate)
    requires ValidDate(day) && 0 <= day.year <= 9999
    ensures var f := FormState(5.0, IsoDateText(day), " ", Some(Food));
            && !IsValid(f)
            && Schema.ValidateCreate(ToRaw(HandleSubmit(f).value)).Ok?
  {
    var f := FormState(5.0, IsoDateText(day), " ", Some(Food));
    IsoDateTextParses(day);
    assert Blank(" ") by {
      assert Decimal.IsJsSpace(" "[0]);
    }
    NameParses(Food);
  }

  /** The form opens invalid. */
  lemma InitialFormInvalid(today: Instant)
    requires ValidInstant(today)
    ensures !IsValid(InitialForm(today))
    ensures !SubmitEnabled(InitialForm(today), false)
  {
  }

  /** The day the form opens with is the day the server stores. */
  lemma InitialDateRoundTrips(today: Instant)
    requires ValidInstant(today) && 0 <= today.day.year <= 9999
    ensures SubmittedDate(InitialForm(today).date) == Some(Midnight(today.day))
  {
  }

  /** A whole number typed as `toString` writes it reads as itself, and an
      exponent is honoured. */
  lemma AmountParsing(n: nat)
    ensures AmountFromText(Decimal.NatToDecimal(n)) == n as real
    ensures AmountFromText("1e3") == 1000.0
  {
    Decimal.ParseFloatExponent();
  }
}

=== FILE: filter_control.dfy ===
/** The filter control: three selects (category, month, year), each with an
    "all" entry, and a button that clears them. Its state is the filter
    object it reports after every change. */
module FilterControl {
  import opened Outcomes
  import opened Categories
  import Decimal
  import Schema

  /** One key of the filter object: never set, set to `undefined` (after an
      "all" choice), or holding a value. */
  datatype Slot<+T> = Missing | Undefined | Given(value: T)

  datatype FilterState = FilterState(category: Slot<Category>, month: Slot<int>, year: Slot<int>)

  /** The control starts, and is cleared to, the empty object `{}`. */
  const Initial: FilterState := FilterState(Missing, Missing, Missing)

  /** The value of every select's "all" entry. */
  const AllChoice: string := "all"

  datatype CategoryChoice = AllCategories | PickCategory(category: Category)

  /** The month numbers offered, January (1) to December (12). */
  function MonthOptions(): (ms: seq<int>)
    ensures |ms| == 12
    ensures forall i :: 0 <= i < 12 ==> ms[i] == i + 1
  {
    seq(12, i => i + 1)
  }

  /** The years offered: the current year and the four before it, newest
      first. */
  function YearOptions(currentYear: int): (ys: seq<int>)
    ensures |ys| == 5
    ensures forall i :: 0 <= i < 5 ==> ys[i] == currentYear - i
  {
    seq(5, i => currentYear - i)
  }

  /** The text a select item carries for a number (`value.toString()`). */
  function OptionValues(xs: seq<int>): (vs: seq<string>)
    ensures |vs| == |xs|
    ensures forall i :: 0 <= i < |xs| ==> vs[i] == Decimal.IntToDecimal(xs[i])
  {
    seq(|xs|, i requires 0 <= i < |xs| => Decimal.IntToDecimal(xs[i]))
  }

  /** `handleCategoryChange`: "all" unsets the category, any other choice sets
      it; month and year are kept. */
  function HandleCategoryChange(st: FilterState, choice: CategoryChoice): (r: FilterState)
    ensures r.month == st.month && r.year == st.year
    ensures r.category.Given? <==> choice.PickCategory?
    ensures choice.PickCategory? ==> r.category.value == choice.category
    ensures r.category != Missing
  {
    st.(category := if choice.AllCategories? then Undefined else Given(choice.category))
  }

  /** A choice a number select can emit: "all", or text `parseInt` reads. */
  predicate NumberChoice(choice: string) {
    choice == AllChoice || Decimal.ParseInt(choice).Some?
  }

  /** The value a number select's choice sets: `undefined` for "all",
      otherwise the integer `parseInt` reads. */
  function ChoiceSlot(choice: string): (r: Slot<int>)
    requires NumberChoice(choice)
    ensures r != Missing
    ensures r.Undefined? <==> choice == AllChoice
  {
    if choice == AllChoice then Undefined else Given(Decimal.ParseInt(choice).value)
  }

  /** `handleMonthChange`: sets or unsets the month; category and year kept. */
  function HandleMonthChange(st: FilterState, choice: string): (r: FilterState)
    requires NumberChoice(choice)
    ensures r.category == st.category && r.year == st.year
    ensures r.month.Undefined? <==> choice == AllChoice
    ensures choice != AllChoice ==> r.month == Given(Decimal.ParseInt(choice).value)
    ensures r.month != Missing
  {
    st.(month := ChoiceSlot(choice))
  }

  /** `handleYearChange`: sets or unsets the year; category and month kept. */
  function HandleYearChange(st: FilterState, choice: string): (r: FilterState)
    requires NumberChoice(choice)
    ensures r.category == st.category && r.month == st.month
    ensures r.year.Undefined? <==> choice == AllChoice
    ensures choice != AllChoice ==> r.year == Given(Decimal.ParseInt(choice).value)
    ensures r.year != Missing
  {
    st.(year := ChoiceSlot(choice))
  }

  /** `clearFilters`: the empty object, whatever the state was. */
  function ClearFilters(st: FilterState): (r: FilterState)
    ensures r.category == Missing && r.month == Missing && r.year == Missing
  {
    Initial
  }

  /** JavaScript truthiness of a filter key: a category name is never empty,
      a number is truthy unless it is 0. */
  predicate CategoryTruthy(s: Slot<Category>) { s.Given? }

  predicate NumberTruthy(s: Slot<int>) { s.Given? && s.value != 0 }

  /** `hasActiveFilters`: some key is truthy. A chosen category always
      counts; a month or year counts unless it is 0; `undefined` and missing
      keys never count. */
  function HasActiveFilters(st: FilterState): (b: bool)
    ensures st.category.Given? ==> b
    ensures st.month.Given? && st.month.value != 0 ==> b
    ensures st.year.Given? && st.year.value != 0 ==> b
    ensures b ==> st.category.Given? || st.month.Given? || st.year.Given?
  {
    CategoryTruthy(st.category) || NumberTruthy(st.month) || NumberTruthy(st.year)
  }

  /** The filter a state denotes once `undefined` keys are dropped. */
  function SlotValue<T>(s: Slot<T>): (r: Option<T>)
    ensures r.Some? <==> s.Given?
    ensures r.Some? ==> r.value == s.value
  {
    if s.Given? then Some(s.value) else None
  }

  function ToFilter(st: FilterState): Schema.Filter {
    Schema.Filter(SlotValue(st.category), SlotValue(st.month), SlotValue(st.year))
  }

  /** The object as the server's filter schema receives it. */
  function ToRaw(st: FilterState): (raw: Schema.RawFilter)
    ensures raw.category.Present? <==> st.category.Given?
    ensures raw.month.Present? <==> st.month.Given?
    ensures raw.year.Present? <==> st.year.Given?
    ensures st.category.Given? ==> raw.category.value == Name(st.category.value)
    ensures st.month.Given? ==> raw.month.value == st.month.value as real
    ensures st.year.Given? ==> raw.year.value == st.year.value as real
  {
    Schema.RawFilter(
      if st.category.Given? then Schema.Present(Name(st.category.value)) else Schema.Absent,
      if st.month.Given? then Schema.Present(st.month.value as real) else Schema.Absent,
      if st.year.Given? then Schema.Present(st.year.value as real) else Schema.Absent)
  }

  // -------------------------------------------------- sequences of changes

  datatype Event = CategoryChanged(choice: CategoryChoice) | MonthChanged(text: string) | YearChanged(text: string) | Cleared

  /** The choices the selects offer. */
  predicate Offered(ev: Event, currentYear: int) {
    match ev
    case CategoryChanged(_) => true
    case MonthChanged(t) => t == AllChoice || t in OptionValues(MonthOptions())
    case YearChanged(t) => t == AllChoice || t in OptionValues(YearOptions(currentYear))
    case Cleared => true
  }

  lemma OptionValueIsNumberChoice(xs: seq<int>, t: string)
    requires t in OptionValues(xs)
    ensures NumberChoice(t)
    ensures Decimal.ParseInt(t).value in xs
  {
    var i :| 0 <= i < |xs| && OptionValues(xs)[i] == t;
    Decimal.IntToDecimalParses(xs[i]);
  }

  function Step(st: FilterState, ev: Event, currentYear: int): (r: FilterState)
    requires Offered(ev, currentYear)
  {
    match ev
    case CategoryChanged(c) => HandleCategoryChange(st, c)
    case MonthChanged(t) =>
      if t == AllChoice then HandleMonthChange(st, t)
      else OptionValueIsNumberChoice(MonthOptions(), t); HandleMonthChange(st, t)
    case YearChanged(t) =>
      if t == AllChoice then HandleYearChange(st, t)
      else OptionValueIsNumberChoice(YearOptions(currentYear), t); HandleYearChange(st, t)
    case Cleared => ClearFilters(st)
  }

  /** The state after a run of offered changes from the initial one. */
  function Run(evs: seq<Event>, currentYear: int): FilterState
    requires forall i :: 0 <= i < |evs| ==> Offered(evs[i], currentYear)
  {
    if |evs| == 0 then Initial
    else Step(Run(evs[..|evs| - 1], currentYear), evs[|evs| - 1], currentYear)
  }

  /** The values a state reachable through the selects can hold. */
  predicate InOfferedRange(st: FilterState, currentYear: int) {
    && (st.month.Given? ==> 1 <= st.month.value <= 12)
    && (st.year.Given? ==> currentYear - 4 <= st.year.value <= currentYear)
  }

  lemma {:induction false} RunStaysInRange(evs: seq<Event>, currentYear: int)
    requires forall i :: 0 <= i < |evs| ==> Offered(evs[i], currentYear)
    ensures InOfferedRange(Run(evs, currentYear), currentYear)
  {
    if |evs| > 0 {
      var prefix := evs[..|evs| - 1];
      RunStaysInRange(prefix, currentYear);
      StepStaysInRange(Run(prefix, currentYear), evs[|evs| - 1], currentYear);
    }
  }

  lemma StepStaysInRange(st: FilterState, ev: Event, currentYear: int)
    requires Offered(ev, currentYear) && InOfferedRange(st, currentYear)
    ensures InOfferedRange(Step(st, ev, currentYear), currentYear)
  {
    match ev
    case MonthChanged(t) =>
      if t != AllChoice {
        OfferedMonthInRange(st, t);
      }
    case YearChanged(t) =>
      if t != AllChoice {
        OfferedYearInRange(st, t, currentYear);
      }
    case _ =>
  }

  lemma OfferedMonthInRange(st: FilterState, t: string)
    requires t in OptionValues(MonthOptions())
    ensures var m := HandleMonthChange(st, t).month; m.Given? && 1 <= m.value <= 12
  {
    ChosenValueOffered(st, t, MonthOptions());
  }

  lemma OfferedYearInRange(st: FilterState, t: string, currentYear: int)
    requires t in OptionValues(YearOptions(currentYear))
    ensures var y := HandleYearChange(st, t).year; y.Given? && currentYear - 4 <= y.value <= currentYear
  {
    ChosenValueOffered(st, t, YearOptions(currentYear));
  }

  /** A select sets the number its chosen item was rendered from. */
  lemma ChosenValueOffered(st: FilterState, t: string, xs: seq<int>)
    requires t in OptionValues(xs)
    ensures NumberChoice(t)
    ensures var m := HandleMonthChange(st, t).month; m.Given? && m.value in xs
    ensures var y := HandleYearChange(st, t).year; y.Given? && y.value in xs
  {
    OptionValueIsNumberChoice(xs, t);
  }

  /** Every filter the control reports passes the server's filter schema,
      once the current year is 1904 or later (so the oldest year offered is
      not below 1900). */
  lemma EmittedFilterValid(evs: seq<Event>, currentYear: int)
    requires forall i :: 0 <= i < |evs| ==> Offered(evs[i], currentYear)
    requires currentYear >= 1904
    ensures Schema.ValidateFilter(ToRaw(Run(evs, currentYear))) == Ok(ToFilter(Run(evs, currentYear)))
  {
    var st := Run(evs, currentYear);
    RunStaysInRange(evs, currentYear);
    if st.category.Given? {
      NameParses(st.category.value);
    }
  }

  /** For such states, the clear button shows exactly when some key holds a
      value. */
  lemma ActiveIffSomeGiven(evs: seq<Event>, currentYear: int)
    requires forall i :: 0 <= i < |evs| ==> Offered(evs[i], currentYear)
    requires currentYear >= 5
    ensures var st := Run(evs, currentYear);
            HasActiveFilters(st) <==> st.category.Given? || st.month.Given? || st.year.Given?
  {
    RunStaysInRange(evs, currentYear);
  }
}

=== FILE: handler_laws.dfy ===
/** Properties that relate the handlers to one another: what a later read
    sees after each write, and what a write leaves alone. */
module HandlerLaws {
  import opened Outcomes
  import opened Calendar
  import opened Categories
  import opened Schema
  import opened ExpenseTable
  import opened Handlers
  import Money

  /** Serial ids start at 1, so 0 and negative ids are never found; below
      the `integer` range the query fails instead. */
  lemma ZeroAndNegativeIdsAbsent(s: Store, id: int)
    requires Valid(s) && id <= 0
    ensures GetExpenseById(s, id) == if id >= MinInt4 then Ok(None) else Err(IdOutOfRange(id))
  {
  }

  /** An id outside the `integer` range fails every operation that takes an
      id, with the same error, and changes nothing. */
  lemma OutOfRangeIdsFail(s: Store, u: UpdateInput)
    requires Valid(s) && UpdateInputOk(u) && !InInt4(u.id)
    ensures GetExpenseById(s, u.id) == Err(IdOutOfRange(u.id))
    ensures UpdateExpense(s, u) == Err(IdOutOfRange(u.id))
    ensures DeleteExpense(s, u.id) == Err(IdOutOfRange(u.id))
  {
  }

  /** Once the sequence has handed out its last value, every create fails
      and the table stays as it was. */
  lemma CreateAfterLastIdFails(s: Store, input: CreateInput, now: Instant)
    requires Valid(s) && CreateInputOk(input) && ValidInstant(now)
    requires s.nextId == MaxInt4 + 1
    ensures CreateExpense(s, input, now) == Err(SequenceExhausted)
  {
  }

  /** Reading a created row back by its id yields the rounded amount and the
      date, description and category as supplied. */
  lemma CreateThenGet(s: Store, input: CreateInput, now: Instant)
    requires Valid(s) && CreateInputOk(input) && ValidInstant(now)
    requires CreateExpense(s, input, now).Ok?
    ensures var st := CreateExpense(s, input, now).value;
            && GetExpenseById(st.store, st.expense.id) == Ok(Some(st.expense))
            && st.expense.amountCents == Money.RoundToCents(input.amount)
            && st.expense.date == input.date.day
            && st.expense.description == input.description
            && st.expense.category == input.category
  {
    var st := CreateExpense(s, input, now).value;
    var c := st.expense.amountCents;
    var x := input.amount;
    assert c as real - 0.5 <= x * 100.0 < c as real + 0.5;
  }

  /** The table gains exactly one row; every earlier row is untouched. */
  lemma CreateAddsOneRow(s: Store, input: CreateInput, now: Instant)
    requires Valid(s) && CreateInputOk(input) && ValidInstant(now)
    requires CreateExpense(s, input, now).Ok?
    ensures var s' := CreateExpense(s, input, now).value.store;
            && |s'.rows| == |s.rows| + 1
            && (forall k :: k in s.rows ==> k in s'.rows && s'.rows[k] == s.rows[k])
  {
    var st := CreateExpense(s, input, now).value;
    assert st.store.rows.Keys == s.rows.Keys + {st.expense.id};
  }

  /** An amount already in whole cents comes back exactly (29.99 stays 29.99). */
  lemma WholeCentAmountEchoed(s: Store, input: CreateInput, now: Instant, cents: int)
    requires Valid(s) && s.nextId <= MaxInt4 && CreateInputOk(input) && ValidInstant(now)
    requires input.amount == Money.Units(cents) && Money.FitsColumn(cents)
    ensures CreateExpense(s, input, now).Ok?
    ensures Amount(CreateExpense(s, input, now).value.expense) == input.amount
  {
    Money.WholeCentsKept(cents);
  }

  /** Two creates in a row return different, increasing ids and keep both
      rows. */
  lemma TwoCreatesDistinct(s: Store, a: CreateInput, b: CreateInput, now: Instant)
    requires Valid(s) && CreateInputOk(a) && CreateInputOk(b) && ValidInstant(now)
    requires CreateExpense(s, a, now).Ok?
    requires CreateExpense(CreateExpense(s, a, now).value.store, b, now).Ok?
    ensures var first := CreateExpense(s, a, now).value;
            var second := CreateExpense(first.store, b, now).value;
            && first.expense.id != second.expense.id
            && first.expense.id < second.expense.id
            && first.expense.id in second.store.rows
            && second.expense.id in second.store.rows
  {
  }

  /** A deleted id is not handed out again by a later create. */
  lemma DeletedIdNotReused(s: Store, id: nat, input: CreateInput, now: Instant)
    requires Valid(s) && id in s.rows && CreateInputOk(input) && ValidInstant(now)
    ensures DeleteExpense(s, id).Ok?
    ensures var r := CreateExpense(DeleteExpense(s, id).value, input, now);
            r.Ok? ==> r.value.expense.id != id
  {
  }

  /** A positive amount below half a cent passes validation but is stored as
      0.00: the stored amount is never negative, yet may be zero. */
  lemma SubCentAmountStoredAsZero(s: Store, date: Instant, now: Instant)
    requires Valid(s) && s.nextId <= MaxInt4 && ValidInstant(date) && ValidInstant(now)
    ensures var input := CreateInput(0.004, date, "Gum", Food);
            && CreateInputOk(input)
            && CreateExpense(s, input, now).Ok?
            && CreateExpense(s, input, now).value.expense.amountCents == 0
  {
    Money.TinyPositiveAmountRoundsToZero();
    assert Money.FitsColumn(0);
  }

  /** Delete, then fetch: `null`, whether or not the id ever existed. */
  lemma DeleteThenGet(s: Store, id: int)
    requires Valid(s)
    ensures DeleteExpense(s, id).Ok? ==> GetExpenseById(DeleteExpense(s, id).value, id) == Ok(None)
  {
  }

  /** Deleting an absent id leaves the table as it was. */
  lemma DeleteAbsentIsNoOp(s: Store, id: int)
    requires Valid(s) && GetExpenseById(s, id) == Ok(None)
    ensures DeleteExpense(s, id) == Ok(s)
  {
    if id >= 0 {
      assert s.rows - {id as nat} == s.rows;
    }
  }

  /** Deleting twice is deleting once. */
  lemma DeleteIdempotent(s: Store, id: int)
    requires Valid(s)
    ensures DeleteExpense(s, id).Ok? ==> DeleteExpense(DeleteExpense(s, id).value, id) == DeleteExpense(s, id)
  {
    if DeleteExpense(s, id).Ok? {
      DeleteAbsentIsNoOp(DeleteExpense(s, id).value, id);
    }
  }

  /** Deleting one row leaves every other row readable and unchanged. */
  lemma DeleteFrame(s: Store, id: int, other: int)
    requires Valid(s) && other != id
    ensures DeleteExpense(s, id).Ok? ==>
            GetExpenseById(DeleteExpense(s, id).value, other) == GetExpenseById(s, other)
  {
  }

  /** An update's changes persist: a later read sees the merged row. */
  lemma UpdateThenGet(s: Store, u: UpdateInput)
    requires Valid(s) && UpdateInputOk(u)
    requires UpdateExpense(s, u).Ok?
    ensures GetExpenseById(UpdateExpense(s, u).value.store, u.id) == Ok(Some(Merge(s.rows[u.id], u)))
  {
  }

  /** An update of a missing id fails, whatever fields it carries, and so
      never creates a row. */
  lemma UpdateMissingFails(s: Store, u: UpdateInput)
    requires Valid(s) && UpdateInputOk(u) && GetExpenseById(s, u.id) == Ok(None)
    ensures UpdateExpense(s, u) == Err(NotFound(u.id))
    ensures ErrorMessage(UpdateExpense(s, u).error) == "Expense with id " + Decimal.IntToDecimal(u.id) + " not found"
  {
  }

  /** An update never touches another row's read. */
  lemma UpdateFrame(s: Store, u: UpdateInput, other: int)
    requires Valid(s) && UpdateInputOk(u) && other != u.id
    requires UpdateExpense(s, u).Ok?
    ensures GetExpenseById(UpdateExpense(s, u).value.store, other) == GetExpenseById(s, other)
  {
  }

  /** An amount of 12.345 is stored and returned as 12.35. */
  lemma UpdateRoundsAmount(s: Store, id: nat)
    requires Valid(s) && id in s.rows
    ensures var u := UpdateInput(id, Some(12.345), None, None, None);
            && UpdateInputOk(u)
            && UpdateExpense(s, u).Ok?
            && UpdateExpense(s, u).value.expense.amountCents == 1235
  {
    Money.RoundsHalfCentUp();
    assert Money.FitsColumn(1235);
  }

  /** No filter and a filter with no field both list every row. */
  lemma EmptyFilterListsAll(s: Store)
    requires Valid(s)
    ensures GetExpenses(s, Some(Filter(None, None, None))) == GetExpenses(s, None)
    ensures forall e :: e in GetExpenses(s, None) <==> e in s.rows.Values
  {
    assert Conditions(Some(Filter(None, None, None))) == [] + [];
  }

  /** Every combination of category, month and year: a row is listed exactly
      when it has each of the values given. */
  lemma FilterCases(s: Store, e: Expense, c: Category, m: int, y: int)
    requires Valid(s) && e in s.rows.Values
    ensures e in GetExpenses(s, Some(Filter(Some(c), None, None))) <==> e.category == c
    ensures e in GetExpenses(s, Some(Filter(None, Some(m), None))) <==> e.date.month == m
    ensures e in GetExpenses(s, Some(Filter(None, None, Some(y)))) <==> e.date.year == y
    ensures e in GetExpenses(s, Some(Filter(None, Some(m), Some(y)))) <==> e.date.month == m && e.date.year == y
    ensures e in GetExpenses(s, Some(Filter(Some(c), Some(m), None))) <==> e.category == c && e.date.month == m
    ensures e in GetExpenses(s, Some(Filter(Some(c), None, Some(y)))) <==> e.category == c && e.date.year == y
    ensures e in GetExpenses(s, Some(Filter(Some(c), Some(m), Some(y)))) <==>
            e.category == c && e.date.month == m && e.date.year == y
  {
  }

  /** A filter no row meets lists nothing. */
  lemma NoMatchListsNothing(s: Store, f: Filter)
    requires Valid(s)
    requires forall e :: e in s.rows.Values ==> !Selects(Some(f), e)
    ensures GetExpenses(s, Some(f)) == []
  {
    NoMembersMeansEmpty(GetExpenses(s, Some(f)));
  }

  lemma NoMembersMeansEmpty<T>(r: seq<T>)
    ensures (forall x :: x !in r) ==> r == []
  {
    if |r| > 0 {
      assert r[0] in r;
    }
  }

  /** The lifecycle of one record: create, find it by category, update its
      amount, delete it, and find nothing. */
  lemma Lifecycle(s: Store, day: CalDate, now: Instant)
    requires Valid(s) && s.nextId <= MaxInt4 && ValidDate(day) && ValidInstant(now)
    ensures var input := CreateInput(29.99, Midnight(day), "Lunch", Food);
            var created := CreateExpense(s, input, now);
            && created.Ok?
            && Amount(created.value.expense) == 29.99
            && created.value.expense in GetExpenses(created.value.store, Some(Filter(Some(Food), None, None)))
            && var id := created.value.expense.id;
               var updated := UpdateExpense(created.value.store, UpdateInput(id, Some(35.0), None, None, None));
               && updated.Ok?
               && Amount(updated.value.expense) == 35.0
               && updated.value.expense == created.value.expense.(amountCents := 3500)
               && DeleteExpense(updated.value.store, id).Ok?
               && GetExpenseById(DeleteExpense(updated.value.store, id).value, id) == Ok(None)
  {
    var input := CreateInput(29.99, Midnight(day), "Lunch", Food);
    Money.WholeCentsKept(2999);
    Money.WholeCentsKept(3500);
    assert Money.Units(2999) == 29.99;
    assert Money.Units(3500) == 35.0;
    assert Money.FitsColumn(2999) && Money.FitsColumn(3500);
    var created := CreateExpense(s, input, now);
    assert created.value.expense in created.value.store.rows.Values by {
      assert created.value.store.rows[created.value.expense.id] == created.value.expense;
    }
  }
}

=== FILE: handlers.dfy ===
/** The five operations on the expenses table, each a pure function from the
    table (and a validated input) to the new table and the answer. */
module Handlers {
  import opened Outcomes
  import opened Calendar
  import opened Categories
  import opened Schema
  import opened ExpenseTable
  import Money
  import Decimal

  /** Errors that reach the caller: an amount too large for `numeric(10,2)`,
      an update of an id the table does not hold, an id outside the
      `integer` range of the id column, and a sequence that has handed out
      its last value. */
  datatype StoreError = NumericOverflow | NotFound(id: int) | IdOutOfRange(id: int) | SequenceExhausted

  /** The message each error carries: the handler's own text for a missing
      id, PostgreSQL's for the rest. The id in a message reads back as the
      id. */
  function ErrorMessage(e: StoreError): (m: string)
    ensures e.NotFound? ==>
      && |m| > 26 && m[..16] == "Expense with id " && m[|m| - 10..] == " not found"
      && Decimal.ParseInt(m[16..|m| - 10]) == Some(e.id)
    ensures e.IdOutOfRange? ==>
      && |m| > 41 && m[..7] == "value \"" && m[|m| - 34..] == "\" is out of range for type integer"
      && Decimal.ParseInt(m[7..|m| - 34]) == Some(e.id)
  {
    match e
    case NotFound(id) =>
      IdInMessage("Expense with id ", id, " not found");
      "Expense with id " + Decimal.IntToDecimal(id) + " not found"
    case IdOutOfRange(id) =>
      IdInMessage("value \"", id, "\" is out of range for type integer");
      "value \"" + Decimal.IntToDecimal(id) + "\" is out of range for type integer"
    case NumericOverflow => "numeric field overflow"
    case SequenceExhausted => "nextval: reached maximum value of sequence \"expenses_id_seq\" (2147483647)"
  }

  /** An id written between two fixed texts reads back from between them. */
  lemma IdInMessage(before: string, id: int, after: string)
    ensures var m := before + Decimal.IntToDecimal(id) + after;
            && |m| > |before| + |after|
            && m[..|before|] == before && m[|m| - |after|..] == after
            && Decimal.ParseInt(m[|before|..|m| - |after|]) == Some(id)
  {
    var t := Decimal.IntToDecimal(id);
    Framed(before, t, after);
    assert Decimal.ParseInt(t) == Some(id) by {
      Decimal.IntToDecimalParses(id);
    }
  }

  lemma Framed(before: string, t: string, after: string)
    ensures var m := before + t + after;
            && m[..|before|] == before && m[|m| - |after|..] == after
            && m[|before|..|m| - |after|] == t
  {
  }

  /** A table after a write, with the row the write returned. */
  datatype Stored = Stored(store: Store, expense: Expense)

  // ---------------------------------------------------------------- create

  /** `createExpense`: inserts a row with the next sequence value as id, the
      amount coerced to the column's two decimals, the UTC calendar day of
      the date, and `now` as creation time; returns the inserted row. A
      sequence past the `integer` ceiling, or an amount too large for the
      column, fails the insert and leaves the table as it was; the id is
      drawn first. */
  function CreateExpense(s: Store, input: CreateInput, now: Instant): (r: Result<Stored, StoreError>)
    requires Valid(s) && CreateInputOk(input) && ValidInstant(now)
    ensures r.Ok? <==> s.nextId <= MaxInt4 && Money.FitsColumn(Money.RoundToCents(input.amount))
    ensures r.Err? ==> (r.error == SequenceExhausted <==> s.nextId > MaxInt4)
    ensures r.Err? && s.nextId <= MaxInt4 ==> r.error == NumericOverflow
    ensures r.Ok? ==>
      var e := r.value.expense;
      var s' := r.value.store;
      && Valid(s')
      && e.id !in s.rows
      && (forall k :: k in s.rows ==> k < e.id)
      && s'.rows == s.rows[e.id := e]
      && s'.nextId > s.nextId
      && e.amountCents as real - 0.5 <= input.amount * 100.0 < e.amountCents as real + 0.5
      && e.date == input.date.day
      && e.description == input.description
      && e.category == input.category
      && e.createdAt == now
  {
    var cents := Money.RoundToCents(input.amount);
    if s.nextId > MaxInt4 then Err(SequenceExhausted)
    else if !Money.FitsColumn(cents) then Err(NumericOverflow)
    else
      var e := Expense(s.nextId, cents, input.date.day, input.description, input.category, now);
      Ok(Stored(Store(s.rows[e.id := e], s.nextId + 1), e))
  }

  // ------------------------------------------------------------ get by id

  /** `getExpenseById`: the row with that id, or `None` (`null`) when there is
      none. An id outside the column's `integer` range is an error of the
      query itself. */
  function GetExpenseById(s: Store, id: int): (r: Result<Option<Expense>, StoreError>)
    ensures r.Err? <==> !InInt4(id)
    ensures r.Err? ==> r.error == IdOutOfRange(id)
    ensures r.Ok? ==> (r.value.Some? <==> id >= 0 && id in s.rows)
    ensures r.Ok? && r.value.Some? ==> r.value.value == s.rows[id]
  {
    if !InInt4(id) then Err(IdOutOfRange(id))
    else if id >= 0 && id in s.rows then Ok(Some(s.rows[id]))
    else Ok(None)
  }

  // ----------------------------------------------------------------- list

  /** One SQL predicate of the listing query. */
  datatype Condition = CategoryIs(category: Category) | MonthIs(month: int) | YearIs(year: int)

  function Holds(c: Condition, e: Expense): bool {
    match c
    case CategoryIs(cat) => e.category == cat
    case MonthIs(m) => e.date.month == m
    case YearIs(y) => e.date.year == y
  }

  /** The predicates `getExpenses` collects, in the order it collects them:
      category first, then the date predicates by the four-way branch on
      which of month and year are given. */
  function Conditions(filter: Option<Filter>): (r: seq<Condition>)
    ensures filter.None? ==> r == []
    ensures filter.Some? ==>
      var f := filter.value;
      forall c :: c in r <==>
        || (c.CategoryIs? && f.category == Some(c.category))
        || (c.MonthIs? && f.month == Some(c.month))
        || (c.YearIs? && f.year == Some(c.year))
    ensures filter.Some? && filter.value.category.Some? ==> |r| > 0 && r[0] == CategoryIs(filter.value.category.value)
  {
    if filter.None? then []
    else
      var f := filter.value;
      var byCategory := if f.category.Some? then [CategoryIs(f.category.value)] else [];
      var byDate :=
        if f.month.Some? || f.year.Some? then
          if f.month.Some? && f.year.Some? then [MonthIs(f.month.value), YearIs(f.year.value)]
          else if f.year.Some? then [YearIs(f.year.value)]
          else [MonthIs(f.month.value)]
        else [];
      byCategory + byDate
  }

  /** The WHERE clause: none, the one condition, or the `and` of them all. */
  predicate Where(conds: seq<Condition>, e: Expense) {
    if |conds| == 0 then true
    else if |conds| == 1 then Holds(conds[0], e)
    else forall i :: 0 <= i < |conds| ==> Holds(conds[i], e)
  }

  /** What the listing promises, stated directly: a row is selected when it
      agrees with every field the filter gives. */
  predicate Selects(filter: Option<Filter>, e: Expense) {
    filter.None? ||
    var f := filter.value;
    && (f.category.None? || e.category == f.category.value)
    && (f.month.None? || e.date.month == f.month.value)
    && (f.year.None? || e.date.year == f.year.value)
  }

  /** The four-way month/year branch, joined to the category predicate,
      selects exactly the rows that agree with every given field. */
  lemma BranchEquivalence(filter: Option<Filter>, e: Expense)
    ensures Where(Conditions(filter), e) <==> Selects(filter, e)
  {
    if filter.Some? {
      var f := filter.value;
      var conds := Conditions(filter);
      var byCategory := if f.category.Some? then [CategoryIs(f.category.value)] else [];
      var byDate := conds[|byCategory|..];
      assert conds == byCategory + byDate;
      if f.month.Some? && f.year.Some? {
        assert byDate == [MonthIs(f.month.value), YearIs(f.year.value)];
        assert Holds(conds[|byCategory|], e) <==> e.date.month == f.month.value;
        assert Holds(conds[|byCategory| + 1], e) <==> e.date.year == f.year.value;
        if f.category.Some? {
          assert Holds(conds[0], e) <==> e.category == f.category.value;
        }
      } else if f.month.Some? || f.year.Some? {
        assert |byDate| == 1;
        assert Holds(conds[|byCategory|], e) <==> Selects(Some(Filter(None, f.month, f.year)), e);
        if f.category.Some? {
          assert Holds(conds[0], e) <==> e.category == f.category.value;
        }
      }
    }
  }

  /** Rows whose ids lie in `lo .. hi-1` and that meet the conditions, by
      ascending id. */
  function Scan(rows: map<nat, Expense>, conds: seq<Condition>, lo: nat, hi: nat): (r: seq<Expense>)
    requires forall k :: k in rows ==> rows[k].id == k
    ensures forall e :: e in r <==> lo <= e.id < hi && e.id in rows && rows[e.id] == e && Where(conds, e)
    ensures forall i, j :: 0 <= i < j < |r| ==> r[i].id < r[j].id
    decreases hi - lo
  {
    if lo >= hi then []
    else
      var head := if lo in rows && Where(conds, rows[lo]) then [rows[lo]] else [];
      head + Scan(rows, conds, lo + 1, hi)
  }

  /** `getExpenses`: the rows the filter selects. The query has no ORDER BY;
      this model lists them by ascending id, and promises nothing else about
      the order. */
  function GetExpenses(s: Store, filter: Option<Filter>): (r: seq<Expense>)
    requires Valid(s)
    ensures forall e :: e in r <==> e in s.rows.Values && Selects(filter, e)
    ensures forall i, j :: 0 <= i < j < |r| ==> r[i].id < r[j].id
  {
    var r := Scan(s.rows, Conditions(filter), 1, s.nextId);
    forall e | e in s.rows.Values ensures e.id in s.rows && s.rows[e.id] == e {
      var k :| k in s.rows && s.rows[k] == e;
    }
    forall e ensures Where(Conditions(filter), e) <==> Selects(filter, e) {
      BranchEquivalence(filter, e);
    }
    r
  }

  // --------------------------------------------------------------- update

  /** An update that supplies no field besides the id. */
  predicate NoFields(u: UpdateInput) {
    u.amount.None? && u.date.None? && u.description.None? && u.category.None?
  }

  /** The row after an update: each supplied field replaced (the amount
      coerced to two decimals, the date cut to its UTC day), every other
      column kept. */
  function Merge(e: Expense, u: UpdateInput): (m: Expense)
    ensures m.id == e.id && m.createdAt == e.createdAt
    ensures u.amount.None? ==> m.amountCents == e.amountCents
    ensures u.amount.Some? ==> m.amountCents == Money.RoundToCents(u.amount.value)
    ensures u.date.None? ==> m.date == e.date
    ensures u.date.Some? ==> m.date == u.date.value.day
    ensures u.description.None? ==> m.description == e.description
    ensures u.description.Some? ==> m.description == u.description.value
    ensures u.category.None? ==> m.category == e.category
    ensures u.category.Some? ==> m.category == u.category.value
  {
    e.(
      amountCents := if u.amount.Some? then Money.RoundToCents(u.amount.value) else e.amountCents,
      date := if u.date.Some? then u.date.value.day else e.date,
      description := if u.description.Some? then u.description.value else e.description,
      category := if u.category.Some? then u.category.value else e.category)
  }

  /** `updateExpense`: with no field supplied, the current row unchanged;
      otherwise the row with the supplied fields replaced. An id outside the
      `integer` range fails first; a missing id fails with NotFound on both
      paths; an update never inserts. */
  function UpdateExpense(s: Store, u: UpdateInput): (r: Result<Stored, StoreError>)
    requires Valid(s) && UpdateInputOk(u)
    ensures r.Err? && r.error.IdOutOfRange? <==> !InInt4(u.id)
    ensures r.Err? && r.error.NotFound? <==> InInt4(u.id) && !(u.id >= 0 && u.id in s.rows)
    ensures r.Err? && (r.error.NotFound? || r.error.IdOutOfRange?) ==> r.error.id == u.id
    ensures r.Err? && r.error.NumericOverflow? ==>
      u.amount.Some? && !Money.FitsColumn(Money.RoundToCents(u.amount.value))
    ensures r.Err? ==> !r.error.SequenceExhausted?
    ensures r.Ok? ==>
      var s' := r.value.store;
      && u.id >= 0 && u.id in s.rows
      && Valid(s')
      && s'.rows.Keys == s.rows.Keys
      && s'.nextId == s.nextId
      && r.value.expense == s'.rows[u.id] == Merge(s.rows[u.id], u)
      && (forall k :: k in s.rows && k != u.id ==> s'.rows[k] == s.rows[k])
    ensures NoFields(u) && u.id >= 0 && u.id in s.rows ==> r == Ok(Stored(s, s.rows[u.id]))
  {
    if !InInt4(u.id) then Err(IdOutOfRange(u.id))
    else if NoFields(u) then
      if u.id >= 0 && u.id in s.rows then Ok(Stored(s, s.rows[u.id]))
      else Err(NotFound(u.id))
    else if !(u.id >= 0 && u.id in s.rows) then Err(NotFound(u.id))
    else if u.amount.Some? && !Money.FitsColumn(Money.RoundToCents(u.amount.value)) then Err(NumericOverflow)
    else
      var m := Merge(s.rows[u.id], u);
      var s' := s.(rows := s.rows[u.id := m]);
      assert s'.rows.Keys == s.rows.Keys;
      Ok(Stored(s', m))
  }

  // --------------------------------------------------------------- delete

  /** `deleteExpense`: removes the row with that id if there is one; an
      absent id, negative ones included, is not an error, but an id outside
      the `integer` range is. */
  function DeleteExpense(s: Store, id: int): (r: Result<Store, StoreError>)
    requires Valid(s)
    ensures r.Err? <==> !InInt4(id)
    ensures r.Err? ==> r.error == IdOutOfRange(id)
    ensures r.Ok? ==>
      var s' := r.value;
      && Valid(s')
      && (id >= 0 ==> id !in s'.rows)
      && s'.rows.Keys == s.rows.Keys - (if id >= 0 then {id as nat} else {})
      && (forall k :: k in s'.rows ==> s'.rows[k] == s.rows[k])
      && s'.nextId == s.nextId
  {
    if !InInt4(id) then Err(IdOutOfRange(id))
    else if id >= 0 then Ok(s.(rows := s.rows - {id as nat}))
    else Ok(s)
  }
}

=== FILE: money.dfy ===
/** Monetary amounts. The API carries an amount as a number; the `amount`
    column is `numeric(10,2)`, so what is stored is a whole number of cents. */
module Money {
  import opened Decimal

  /** Digits after the point kept by the column. */
  const Scale: nat := 2
  /** Digits in all kept by the column. */
  const Precision: nat := 10

  /** Rounds to the nearest cent, halves away from zero, as the numeric type
      does when it coerces a value to scale 2. */
  function RoundToCents(x: real): (c: int)
    ensures x >= 0.0 ==> c >= 0 && c as real - 0.5 <= x * 100.0 < c as real + 0.5
    ensures x < 0.0 ==> c <= 0 && c as real - 0.5 < x * 100.0 <= c as real + 0.5
  {
    if x >= 0.0 then (x * 100.0 + 0.5).Floor else -((-x * 100.0 + 0.5).Floor)
  }

  /** A value of scale 2 fits `numeric(10,2)` when it has at most ten digits,
      that is when its absolute value is below 10^8 units. */
  predicate FitsColumn(cents: int) {
    -(Pow10(Precision) as int) < cents < Pow10(Precision)
  }

  /** What `parseFloat` of the column's text gives back: the cents as units. */
  function Units(cents: int): (v: real)
    ensures v * 100.0 == cents as real
  {
    cents as real / 100.0
  }

  lemma WholeCentsKept(cents: int)
    ensures RoundToCents(Units(cents)) == cents
  {
    var x := Units(cents);
    if x >= 0.0 {
      assert (x * 100.0 + 0.5).Floor == cents;
    } else {
      assert (-x * 100.0 + 0.5).Floor == -cents;
    }
  }

  lemma RoundsHalfCentUp()
    ensures RoundToCents(12.345) == 1235
  {
  }

  /** A positive amount below half a cent is stored as zero. */
  lemma TinyPositiveAmountRoundsToZero()
    ensures 0.004 > 0.0 && RoundToCents(0.004) == 0
  {
  }

  lemma PositiveFromHalfCent(x: real)
    requires x >= 0.005
    ensures RoundToCents(x) >= 1
  {
  }

  lemma ColumnBound()
    ensures FitsColumn(9_999_999_999) && !FitsColumn(10_000_000_000)
  {
    assert Pow10(Precision) == 10_000_000_000;
  }
}

=== FILE: outcomes.dfy ===
/** Option and Result, the two shapes the handlers answer with:
    `null` versus a record, and a thrown error versus a value. */
module Outcomes {

  datatype Option<+T> = None | Some(value: T)

  datatype Result<+T, +E> = Ok(value: T) | Err(error: E)
}

=== FILE: schema.dfy ===
/** Input validation: the create, update and filter schemas. A raw input is
    what arrives over the wire; validation either yields a typed input or
    lists, field by field, which constraint failed. */
module Schema {
  import opened Outcomes
  import opened Calendar
  import Categories

  /** A key of a raw input object: absent (or `undefined`) or present. */
  datatype Field<+T> = Absent | Present(value: T)

  /** A raw date field holds whatever `new Date(value)` made of the input:
      `None` is an Invalid Date. */
  type RawDate = Option<Instant>

  datatype RawCreate = RawCreate(
    amount: Field<real>,
    date: Field<RawDate>,
    description: Field<string>,
    category: Field<string>)

  datatype RawUpdate = RawUpdate(
    id: Field<int>,
    amount: Field<real>,
    date: Field<RawDate>,
    description: Field<string>,
    category: Field<string>)

  datatype RawFilter = RawFilter(
    category: Field<string>,
    month: Field<real>,
    year: Field<real>)

  datatype FieldName = IdField | AmountField | DateField | DescriptionField | CategoryField | MonthField | YearField

  datatype Problem = Required | NotPositive | TooShort | NotInEnum | InvalidDate | NotInteger | BelowMinimum | AboveMaximum

  datatype Issue = Issue(field: FieldName, problem: Problem)

  datatype CreateInput = CreateInput(amount: real, date: Instant, description: string, category: Categories.Category)

  datatype UpdateInput = UpdateInput(
    id: int,
    amount: Option<real>,
    date: Option<Instant>,
    description: Option<string>,
    category: Option<Categories.Category>)

  datatype Filter = Filter(category: Option<Categories.Category>, month: Option<int>, year: Option<int>)

  const MinFilterYear: int := 1900

  // The per-field constraints, stated on values.

  predicate AmountOk(x: real) { x > 0.0 }

  predicate DescriptionOk(s: string) { |s| >= 1 }

  predicate MonthOk(m: int) { 1 <= m <= 12 }

  predicate YearOk(y: int) { y >= MinFilterYear }

  /** What a validated create input satisfies. */
  predicate CreateInputOk(i: CreateInput) {
    AmountOk(i.amount) && ValidInstant(i.date) && DescriptionOk(i.description)
  }

  /** What a validated update input satisfies: each supplied field obeys the
      create constraint. */
  predicate UpdateInputOk(u: UpdateInput) {
    && (u.amount.Some? ==> AmountOk(u.amount.value))
    && (u.date.Some? ==> ValidInstant(u.date.value))
    && (u.description.Some? ==> DescriptionOk(u.description.value))
  }

  /** What a validated filter satisfies. */
  predicate FilterOk(f: Filter) {
    (f.month.Some? ==> MonthOk(f.month.value)) && (f.year.Some? ==> YearOk(f.year.value))
  }

  // The same constraints, stated on raw fields.

  predicate IsInteger(x: real) { x.Floor as real == x }

  predicate RawAmountOk(a: Field<real>) { a.Present? && AmountOk(a.value) }

  predicate RawDateOk(d: Field<RawDate>) { d.Present? && d.value.Some? && ValidInstant(d.value.value) }

  predicate RawDescriptionOk(s: Field<string>) { s.Present? && DescriptionOk(s.value) }

  predicate RawCategoryOk(c: Field<string>) { c.Present? && c.value in Categories.SchemaValues }

  predicate RawMonthOk(m: Field<real>) { m.Absent? || (IsInteger(m.value) && 1.0 <= m.value <= 12.0) }

  predicate RawYearOk(y: Field<real>) { y.Absent? || (IsInteger(y.value) && y.value >= MinFilterYear as real) }

  /** The fields an issue list complains about. */
  function Fields(issues: seq<Issue>): (r: set<FieldName>)
    ensures r == {} <==> |issues| == 0
  {
    if |issues| == 0 then {} else {issues[0].field} + Fields(issues[1..])
  }

  lemma {:induction false} FieldsConcat(a: seq<Issue>, b: seq<Issue>)
    ensures Fields(a + b) == Fields(a) + Fields(b)
  {
    if |a| > 0 {
      assert (a + b)[1..] == a[1..] + b;
      FieldsConcat(a[1..], b);
    } else {
      assert a + b == b;
    }
  }

  /** The field a per-field check reports on, or nothing when it passes. */
  function About(r: seq<Issue>, f: FieldName): set<FieldName> {
    if |r| == 0 then {} else {f}
  }

  // Per-field checks. `optional` is zod's `.optional()`: an absent key passes.

  function AmountIssues(a: Field<real>, optional: bool): (r: seq<Issue>)
    ensures Fields(r) == About(r, AmountField)
    ensures |r| == 0 <==> (optional && a.Absent?) || RawAmountOk(a)
  {
    if a.Absent? then (if optional then [] else [Issue(AmountField, Required)])
    else if a.value > 0.0 then []
    else [Issue(AmountField, NotPositive)]
  }

  /** `z.coerce.date()` turns a missing key into an Invalid Date too. */
  function DateIssues(d: Field<RawDate>, optional: bool): (r: seq<Issue>)
    ensures Fields(r) == About(r, DateField)
    ensures |r| == 0 <==> (optional && d.Absent?) || RawDateOk(d)
  {
    if d.Absent? && optional then []
    else if d.Present? && d.value.Some? && ValidInstant(d.value.value) then []
    else [Issue(DateField, InvalidDate)]
  }

  function DescriptionIssues(s: Field<string>, optional: bool): (r: seq<Issue>)
    ensures Fields(r) == About(r, DescriptionField)
    ensures |r| == 0 <==> (optional && s.Absent?) || RawDescriptionOk(s)
  {
    if s.Absent? then (if optional then [] else [Issue(DescriptionField, Required)])
    else if |s.value| >= 1 then []
    else [Issue(DescriptionField, TooShort)]
  }

  function CategoryIssues(c: Field<string>, optional: bool): (r: seq<Issue>)
    ensures Fields(r) == About(r, CategoryField)
    ensures |r| == 0 <==> (optional && c.Absent?) || RawCategoryOk(c)
  {
    if c.Absent? then (if optional then [] else [Issue(CategoryField, Required)])
    else if Categories.Parse(c.value).Some? then []
    else [Issue(CategoryField, NotInEnum)]
  }

  /** An integer check with inclusive bounds; every failing check is
      reported, as zod does for the checks of one number. */
  function BoundedIntIssues(x: Field<real>, f: FieldName, lo: int, hi: Option<int>): (r: seq<Issue>)
    ensures Fields(r) == About(r, f)
    ensures |r| == 0 <==> x.Absent? || (IsInteger(x.value) && lo as real <= x.value && (hi.Some? ==> x.value <= hi.value as real))
  {
    if x.Absent? then []
    else
      var notInt := if IsInteger(x.value) then [] else [Issue(f, NotInteger)];
      var below := if x.value < lo as real then [Issue(f, BelowMinimum)] else [];
      var above := if hi.Some? && x.value > hi.value as real then [Issue(f, AboveMaximum)] else [];
      FieldsConcat(notInt + below, above);
      FieldsConcat(notInt, below);
      notInt + below + above
  }

  /** `createExpenseInputSchema`: amount positive, date coercible, description
      of length at least one, category from the enum. */
  function ValidateCreate(raw: RawCreate): (r: Result<CreateInput, seq<Issue>>)
    ensures r.Ok? <==> RawAmountOk(raw.amount) && RawDateOk(raw.date) && RawDescriptionOk(raw.description) && RawCategoryOk(raw.category)
    ensures r.Ok? ==> CreateInputOk(r.value)
    ensures r.Ok? ==> && r.value.amount == raw.amount.value
                      && r.value.date == raw.date.value.value
                      && r.value.description == raw.description.value
                      && Categories.Name(r.value.category) == raw.category.value
    ensures r.Err? ==> |r.error| > 0
    ensures r.Err? ==> && (AmountField in Fields(r.error) <==> !RawAmountOk(raw.amount))
                       && (DateField in Fields(r.error) <==> !RawDateOk(raw.date))
                       && (DescriptionField in Fields(r.error) <==> !RawDescriptionOk(raw.description))
                       && (CategoryField in Fields(r.error) <==> !RawCategoryOk(raw.category))
  {
    var a, d, s, c :=
      AmountIssues(raw.amount, false), DateIssues(raw.date, false),
      DescriptionIssues(raw.description, false), CategoryIssues(raw.category, false);
    var issues := a + d + s + c;
    if |issues| == 0 then
      Ok(CreateInput(raw.amount.value, raw.date.value.value, raw.description.value,
                     Categories.Parse(raw.category.value).value))
    else
      FieldsConcat(a + d + s, c);
      FieldsConcat(a + d, s);
      FieldsConcat(a, d);
      Err(issues)
  }

  function IdIssues(id: Field<int>): (r: seq<Issue>)
    ensures Fields(r) == About(r, IdField)
    ensures |r| == 0 <==> id.Present?
  {
    if id.Present? then [] else [Issue(IdField, Required)]
  }

  /** A present key as `Some`, an absent one as `None`. */
  function Optional<T>(f: Field<T>): (r: Option<T>)
    ensures r.Some? <==> f.Present?
    ensures r.Some? ==> r.value == f.value
  {
    if f.Present? then Some(f.value) else None
  }

  /** The issues of an update input, field by field. */
  function UpdateIssues(raw: RawUpdate): (r: seq<Issue>)
    ensures IdField in Fields(r) <==> raw.id.Absent?
    ensures AmountField in Fields(r) <==> !(raw.amount.Absent? || RawAmountOk(raw.amount))
    ensures DateField in Fields(r) <==> !(raw.date.Absent? || RawDateOk(raw.date))
    ensures DescriptionField in Fields(r) <==> !(raw.description.Absent? || RawDescriptionOk(raw.description))
    ensures CategoryField in Fields(r) <==> !(raw.category.Absent? || RawCategoryOk(raw.category))
    ensures Fields(r) <= {IdField, AmountField, DateField, DescriptionField, CategoryField}
  {
    var i, a, d, s, c :=
      IdIssues(raw.id), AmountIssues(raw.amount, true), DateIssues(raw.date, true),
      DescriptionIssues(raw.description, true), CategoryIssues(raw.category, true);
    var r := i + a + d + s + c;
    assert Fields(r) == About(i, IdField) + About(a, AmountField) + About(d, DateField)
                        + About(s, DescriptionField) + About(c, CategoryField) by {
      FieldsConcat(i + a + d + s, c);
      FieldsConcat(i + a + d, s);
      FieldsConcat(i + a, d);
      FieldsConcat(i, a);
    }
    r
  }

  /** `updateExpenseInputSchema`: the id is required; every other field may be
      left out and, when given, obeys its create constraint. */
  function ValidateUpdate(raw: RawUpdate): (r: Result<UpdateInput, seq<Issue>>)
    ensures r.Ok? <==> && raw.id.Present?
                       && (raw.amount.Absent? || RawAmountOk(raw.amount))
                       && (raw.date.Absent? || RawDateOk(raw.date))
                       && (raw.description.Absent? || RawDescriptionOk(raw.description))
                       && (raw.category.Absent? || RawCategoryOk(raw.category))
    ensures r.Ok? ==> UpdateInputOk(r.value)
    ensures r.Ok? ==> && r.value.id == raw.id.value
                      && r.value.amount == Optional(raw.amount)
                      && (r.value.date.Some? <==> raw.date.Present?)
                      && (r.value.date.Some? ==> r.value.date == raw.date.value)
                      && r.value.description == Optional(raw.description)
                      && (r.value.category.Some? <==> raw.category.Present?)
                      && (r.value.category.Some? ==> Categories.Name(r.value.category.value) == raw.category.value)
    ensures r.Err? ==> |r.error| > 0 && r.error == UpdateIssues(raw)
  {
    var issues := UpdateIssues(raw);
    if |issues| == 0 then
      Ok(UpdateInput(
        raw.id.value,
        Optional(raw.amount),
        if raw.date.Present? then raw.date.value else None,
        Optional(raw.description),
        if raw.category.Present? then Categories.Parse(raw.category.value) else None))
    else
      Err(issues)
  }

  /** `expenseFilterSchema`: every field optional; month an integer in 1..12,
      year an integer of at least 1900 with no upper bound. */
  function ValidateFilter(raw: RawFilter): (r: Result<Filter, seq<Issue>>)
    ensures r.Ok? <==> (raw.category.Absent? || RawCategoryOk(raw.category)) && RawMonthOk(raw.month) && RawYearOk(raw.year)
    ensures r.Ok? ==> FilterOk(r.value)
    ensures r.Ok? ==> && (r.value.category.Some? <==> raw.category.Present?)
                      && (r.value.category.Some? ==> Categories.Name(r.value.category.value) == raw.category.value)
                      && (r.value.month.Some? <==> raw.month.Present?)
                      && (r.value.month.Some? ==> r.value.month.value as real == raw.month.value)
                      && (r.value.year.Some? <==> raw.year.Present?)
                      && (r.value.year.Some? ==> r.value.year.value as real == raw.year.value)
    ensures r.Err? ==> |r.error| > 0
    ensures r.Err? ==> && (CategoryField in Fields(r.error) <==> !(raw.category.Absent? || RawCategoryOk(raw.category)))
                       && (MonthField in Fields(r.error) <==> !RawMonthOk(raw.month))
                       && (YearField in Fields(r.error) <==> !RawYearOk(raw.year))
  {
    var c, m, y :=
      CategoryIssues(raw.category, true),
      BoundedIntIssues(raw.month, MonthField, 1, Some(12)),
      BoundedIntIssues(raw.year, YearField, MinFilterYear, None);
    var issues := c + m + y;
    if |issues| == 0 then
      Ok(Filter(
        if raw.category.Present? then Categories.Parse(raw.category.value) else None,
        if raw.month.Present? then Some(raw.month.value.Floor) else None,
        if raw.year.Present? then Some(raw.year.value.Floor) else None))
    else
      FieldsConcat(c + m, y);
      FieldsConcat(c, m);
      Err(issues)
  }

  /** A filter with every field left out is valid and constrains nothing, so
      it selects every row. */
  lemma EmptyFilterAccepted()
    ensures ValidateFilter(RawFilter(Absent, Absent, Absent)) == Ok(Filter(None, None, None))
  {
  }

  /** The month and year bounds are inclusive and years have no ceiling. */
  lemma FilterBoundsAccepted()
    ensures ValidateFilter(RawFilter(Absent, Present(1.0), Absent)).Ok?
    ensures ValidateFilter(RawFilter(Absent, Present(12.0), Absent)).Ok?
    ensures ValidateFilter(RawFilter(Absent, Absent, Present(1900.0))).Ok?
    ensures ValidateFilter(RawFilter(Absent, Absent, Present(1_000_000.0))).Ok?
  {
  }

  /** Each failed check of a filter number is reported, in check order. */
  lemma FilterBoundsRejected()
    ensures ValidateFilter(RawFilter(Absent, Present(0.0), Absent)) == Err([Issue(MonthField, BelowMinimum)])
    ensures ValidateFilter(RawFilter(Absent, Present(13.0), Absent)) == Err([Issue(MonthField, AboveMaximum)])
    ensures ValidateFilter(RawFilter(Absent, Present(0.5), Absent)) == Err([Issue(MonthField, NotInteger), Issue(MonthField, BelowMinimum)])
    ensures ValidateFilter(RawFilter(Absent, Present(1.5), Absent)) == Err([Issue(MonthField, NotInteger)])
    ensures ValidateFilter(RawFilter(Absent, Absent, Present(1899.0))) == Err([Issue(YearField, BelowMinimum)])
  {
    var none := CategoryIssues(Absent, true);
    assert none == [];
    assert BoundedIntIssues(Absent, MonthField, 1, Some(12)) == [];
    assert BoundedIntIssues(Absent, YearField, MinFilterYear, None) == [];
    var m0 := BoundedIntIssues(Present(0.0), MonthField, 1, Some(12));
    assert m0 == [Issue(MonthField, BelowMinimum)];
    assert none + m0 + [] == m0;
    assert (13.0).Floor == 13;
    var m13 := BoundedIntIssues(Present(13.0), MonthField, 1, Some(12));
    assert m13 == [Issue(MonthField, AboveMaximum)];
    assert none + m13 + [] == m13;
    assert (0.5).Floor == 0;
    var mHalf := BoundedIntIssues(Present(0.5), MonthField, 1, Some(12));
    assert mHalf == [Issue(MonthField, NotInteger), Issue(MonthField, BelowMinimum)];
    assert none + mHalf + [] == mHalf;
    assert (1.5).Floor == 1;
    var mOneHalf := BoundedIntIssues(Present(1.5), MonthField, 1, Some(12));
    assert mOneHalf == [Issue(MonthField, NotInteger)];
    assert none + mOneHalf + [] == mOneHalf;
    assert (1899.0).Floor == 1899;
    var y := BoundedIntIssues(Present(1899.0), YearField, MinFilterYear, None);
    assert y == [Issue(YearField, BelowMinimum)];
    assert none + [] + y == y;
  }

  /** An update carrying only the id is valid. */
  lemma IdOnlyUpdateAccepted(id: int)
    ensures ValidateUpdate(RawUpdate(Present(id), Absent, Absent, Absent, Absent))
            == Ok(UpdateInput(id, None, None, None, None))
  {
  }
}

=== FILE: table.dfy ===
/** The `expenses` table: its row layout and the invariants of the whole
    table, seen as a map from id to row plus the id sequence's next value. */
module ExpenseTable {
  import opened Calendar
  import opened Categories
  import Money

  /** One row. Every column is NOT NULL, so every field is always present. */
  datatype Expense = Expense(
    id: nat,
    amountCents: int,
    date: CalDate,
    description: string,
    category: Category,
    createdAt: Instant)

  /** The table: rows keyed by id, and the next value of the `serial` id
      sequence. The sequence starts at 1 and never goes back. */
  datatype Store = Store(rows: map<nat, Expense>, nextId: nat)

  /** The range of PostgreSQL's `integer`, the type of a `serial` column and
      the ceiling of its sequence. */
  const MinInt4: int := -0x8000_0000
  const MaxInt4: int := 0x7FFF_FFFF

  predicate InInt4(n: int) {
    MinInt4 <= n <= MaxInt4
  }

  const Empty: Store := Store(map[], 1)

  /** What a row satisfies: the amount fits `numeric(10,2)` and is not
      negative, the date is a calendar day, the description is not empty and
      the creation time is an instant. */
  predicate RowOk(e: Expense) {
    && 0 <= e.amountCents
    && Money.FitsColumn(e.amountCents)
    && ValidDate(e.date)
    && |e.description| >= 1
    && ValidInstant(e.createdAt)
  }

  /** The table invariant: each row sits under its own id, every id was
      issued by the sequence (so it is at least 1 and below `nextId`), the
      sequence has not passed its ceiling, and every row is well formed. */
  predicate Valid(s: Store) {
    && 1 <= s.nextId <= MaxInt4 + 1
    && forall id :: id in s.rows ==> 1 <= id < s.nextId && s.rows[id].id == id && RowOk(s.rows[id])
  }

  lemma EmptyValid()
    ensures Valid(Empty) && |Empty.rows| == 0
  {
  }

  /** Ids are unique: two rows of a valid table with the same id are the
      same row, and no two keys carry the same row. */
  lemma IdsIdentifyRows(s: Store, a: nat, b: nat)
    requires Valid(s) && a in s.rows && b in s.rows
    ensures s.rows[a].id == s.rows[b].id <==> a == b
    ensures s.rows[a] == s.rows[b] <==> a == b
  {
  }

  /** The amount a row reports, in currency units. */
  function Amount(e: Expense): real {
    Money.Units(e.amountCents)
  }

  /** A well-formed row reports an amount from 0 up to, not including,
      100000000: at most eight digits before the point. */
  lemma RowAmountInColumn(e: Expense)
    requires RowOk(e)
    ensures 0.0 <= Amount(e) < 100_000_000.0
  {
    Money.ColumnBound();
    assert e.amountCents < 10_000_000_000;
  }

  /** Every id in a valid table fits the `integer` id column and names its
      own row. */
  lemma ValidIdsFitColumn(s: Store)
    requires Valid(s)
    ensures forall id :: id in s.rows ==> InInt4(id) && s.rows[id].id == id
  {
  }
}
